=== FILE: README.md ===
# read_depth_genotyper core, modelled in Dafny

read_depth_genotyper calls integer copy numbers per individual per genomic
region from read-depth signal. This project models the bookkeeping around
that genotyper, in two scripts:

- `combine_genotypes.py`:
  - how a contig's regions are split into batch subsets;
  - the fractional overlap of two intervals;
  - the reconciliation of the female and male chrX call tables;
  - the per-region copy-number vector;
  - how one genotype row is built and routed to the filtered and complete outputs;
  - the region rows and header of the batch driver;
  - the small table helpers `is_dup` and `bp`.
- `plots/gene_gram.py`:
  - how many heatmaps are drawn and which samples each one covers;
  - the plot file names;
  - the sample order;
  - region-name normalisation;
  - the column labels.

Modules, one per concern:

| module | file | models |
|---|---|---|
| `RegionPartition` | region_partition.dfy | `get_regions_per_subset` |
| `Overlap` | overlap.dfy | `overlap` |
| `MergeX` | merge_x.dfy | `merge_X_tables` |
| `CopyNumbers` | copy_numbers.dfy | `get_cps` |
| `Genotyping` | genotyping.dfy | `genotype`, the driver's region row and header |
| `TableStats` | table_stats.dfy | `is_dup`, `bp` |
| `GeneGram` | gene_gram.dfy | `get_nplots`, the plotting loop, sample order, name normalisation, column labels |
| `Text` | text.dfy | `str.split`, `str.join`, `%d` formatting and reading integers back |
| `StringOrder` | string_order.dfy | Python's string order and `sorted` |
| `Seqs` | seqs.dfy | filtering and counting over sequences |
| `Wrappers` | wrappers.dfy | `Option` and `Result` |

Modelling choices:

- Floating-point values are exact `real`s.
- Python's NaN is `None`.
- Exceptions the source would raise are `Failure` values:
  - `IndexError` on an empty genotype map;
  - `KeyError` on an individual missing from the map.
- The mixture-model fit is outside the model. Its result, a map from each individual to an integer genotype, is an input.
- Output files are sequences of written chunks.
- The interval index is a filter over the indexed table, in table order. It keeps the rows that share a point with the query interval, which is bx-python's strict overlap test.

Behaviour of the code that the model keeps as it is:

- `overlap` is not clamped below at 0. Intervals that only touch get 0.0, e.g. [0,10) and [10,20), and intervals apart by a gap get a negative value, e.g. -1.0 for [0,10) and [20,30) (`Overlap.Examples`).
- [10,20) against [10,19) has overlap 0.9, which is not above the 0.95 threshold, so the male row is kept (`MergeX.NearMissSurvives`).
- Only the best match of each female row is absorbed. A second male row overlapping the same female row by 0.99 survives (`MergeX.RunnerUpSurvives`).
- `get_regions_per_subset` does not check the subset number. The model states the valid range as a precondition.
- The individual list of the merged tables is the plain concatenation, duplicates included (`MergeX.MergeXTables`).
- The colour branch of `plot_heatmap` takes one colour per distinct group from a list of ten. The main block first cuts the pop table down to the plotted samples (gene_gram.py:196), so only their groups count: more than ten distinct groups among the plotted samples stop the plot with an error before any label is made (`GeneGram.ColumnLabels`, `GeneGram.LabelsForSampleOrder`).

## Model

| member | source | states |
|---|---|---|
| RegionPartition.RegionsPerSubset | combine_genotypes.py:12-20 | each subset holds floor(N/K) or floor(N/K)+1 regions, the larger size exactly for the first N mod K subsets; subset 1 starts at region 0, subset K ends at region N-1, and no subset reaches outside 0..N-1 |
| RegionPartition.Contiguous | combine_genotypes.py:12-20 | subset k+1 begins at the region right after the last region of subset k |
| RegionPartition.Ordered | combine_genotypes.py:12-20 | every earlier subset ends before every later subset begins |
| RegionPartition.Tiling | combine_genotypes.py:12-20 | a region index lies in some subset exactly when it is in 0..N-1, and then in only one |
| RegionPartition.FewRegions | combine_genotypes.py:12-20 | with fewer regions than subsets, the first N subsets hold one region and the others are empty |
| RegionPartition.TenInThree | combine_genotypes.py:12-20 | 10 regions in 3 subsets are 0..3, 4..6 and 7..9 |
| TableStats.IsDup | combine_genotypes.py:22-27 | a row is a duplication exactly when some individual with a call (not -1) has more than two copies |
| TableStats.IsDupIgnoresSentinel | combine_genotypes.py:22-27 | removing the -1 sentinels never changes the verdict: it is the same as asking whether any entry exceeds 2 |
| TableStats.NotDupWhenLow | combine_genotypes.py:22-27 | a row of missing calls and counts up to 2 is not a duplication |
| TableStats.FloorDiv | combine_genotypes.py:31 | Python 2 integer division: the quotient rounds toward minus infinity, and a zero divisor gives 0 as numpy does |
| TableStats.Bp | combine_genotypes.py:30-31 | the result is the floor of the covered length over d; with the default d = 1 it is the covered length itself |
| TableStats.TotalLength | combine_genotypes.py:31 | rows that are proper intervals cover a non-negative length |
| TableStats.TotalLengthAppend | combine_genotypes.py:30-31 | the length covered by two tables together is the sum of their lengths |
| TableStats.TotalLengthBounds | combine_genotypes.py:30-31 | for proper intervals the covered length is non-negative and at least that of any single row |
| Overlap.Overlap | combine_genotypes.py:33-40 | the overlap is at most 1; identical intervals give exactly 1; intervals that meet give a positive value; intervals that do not meet give at most 0 |
| Overlap.Symmetric | combine_genotypes.py:33-40 | the overlap does not depend on the order of the two intervals |
| Overlap.ShareOfLonger | combine_genotypes.py:33-40 | for intervals that meet, the overlap is the shared length divided by the longer length |
| Overlap.ExceedsIff | combine_genotypes.py:33-40 | for a threshold below 1, the overlap exceeds it exactly when the shared length exceeds that fraction of each interval's length |
| Overlap.Nested | combine_genotypes.py:33-40 | an interval inside another overlaps it by the ratio of inner to outer length |
| Overlap.Examples | combine_genotypes.py:33-40 | 0.5 for half-overlapping intervals of length 10; -1.0 for [0,10) against [20,30); 0.0 for [0,10) against [10,20), which only touch; -4.0 for [0,1) against [5,105), the gap over the shorter length; 1.0 for identical intervals; 0.9 for [10,20) against [10,19) |
| MergeX.Query | combine_genotypes.py:63 | the hits are exactly the indexed rows that share a point with the query interval |
| MergeX.ArgMax | combine_genotypes.py:66 | the chosen index holds the largest overlap, and every earlier index holds a strictly smaller one (the first maximum) |
| MergeX.BestMatch | combine_genotypes.py:61-68 | a match is a hit, its overlap exceeds 0.95 and no other hit overlaps more; with no match, every hit overlaps by at most 0.95 |
| MergeX.Absorbed | combine_genotypes.py:58-68 | every entry of the side table is a male key that some female row absorbs, mapped to the interval of a female row |
| MergeX.AbsorbedKeys | combine_genotypes.py:58-68 | a male (start, end) key is in the side table exactly when some female row has it as best match above 0.95 |
| MergeX.AbsorbedValue | combine_genotypes.py:68 | the female interval recorded for an absorbed key is that of the last female row absorbing it |
| MergeX.MergeXTables | combine_genotypes.py:43-80 | every female call comes first, in order; then one call per unabsorbed male row; every call is on chrX; the individual list is the female columns after the first three, followed by the male ones |
| MergeX.SecondaryCalls | combine_genotypes.py:71-74 | after the female calls come exactly the calls of the male rows whose key was not absorbed, as a subsequence of the male table in its order |
| MergeX.AbsorptionRule | combine_genotypes.py:61-74 | a male row's call is emitted exactly when no female row absorbs its key |
| MergeX.AbsorbedHighOverlap | combine_genotypes.py:64-68 | an absorbed key belongs to a male row that some female row overlaps by more than 0.95, sharing more than 95% of each row's length |
| MergeX.NoHitsNoAbsorption | combine_genotypes.py:61-68 | if no female row meets any male row, the side table stays empty |
| MergeX.NoHitsKeepsAll | combine_genotypes.py:61-74 | if no female row meets any male row, the merge is all female calls followed by all male calls |
| MergeX.NearMissSurvives | combine_genotypes.py:61-74 | female [10,20) and male [10,19) (overlap 0.9) both appear in the merge |
| MergeX.CloseMatchAbsorbed | combine_genotypes.py:61-74 | male [0,99) is absorbed by female [0,100) and only the female call remains |
| MergeX.RunnerUpSurvives | combine_genotypes.py:61-74 | of male [0,100) and [1,100), only the first is absorbed by female [0,100); the second is kept |
| MergeX.Individuals | combine_genotypes.py:78 | the individual columns are the header's columns from the fourth on |
| CopyNumbers.GetCps | combine_genotypes.py:82-89 | the two arrays have equal length: the rows minus those of the excluded individual; that individual never appears; each entry pairs an individual of the table with its estimate, NaN read as 0.0 |
| CopyNumbers.GetCpsAppend | combine_genotypes.py:82-89 | the result for two concatenated tables is the concatenation of their results, so row order and pairing are kept |
| CopyNumbers.GetCpsSingle | combine_genotypes.py:82-89 | one row of the excluded individual yields nothing; any other row yields its individual and cleaned estimate |
| CopyNumbers.GetCpsIdentity | combine_genotypes.py:82-89 | without the excluded individual and without NaN, the arrays are the table's columns unchanged |
| Genotyping.Mean | combine_genotypes.py:97 | the mean is undefined (NaN) exactly for an empty vector |
| Genotyping.FirstMissing | combine_genotypes.py:107-110 | no individual is reported exactly when every ordered individual has a genotype; a reported one has none, and every individual before it in the order has one |
| Genotyping.RowValues | combine_genotypes.py:104-110 | under the override every individual gets 2 with no lookup; otherwise each gets its own genotype; it fails, naming the first missing individual, exactly when the override does not apply and someone is missing |
| Genotyping.Genotype | combine_genotypes.py:91-115 | it fails exactly on an empty genotype map or on a missing individual outside the override; on success the complete stream gains one line and keeps its earlier lines, and the filtered stream either is unchanged or gains that same line |
| Genotyping.OverrideRow | combine_genotypes.py:104-106 | under the override the row is the key followed by a 2 for each ordered individual, and it reaches the filtered stream exactly when the cohort is not empty |
| Genotyping.FittedRouting | combine_genotypes.py:107-113 | outside the override the row reaches the filtered stream exactly when the number of ordered individuals called 0 differs from the cohort size |
| Genotyping.Columns | combine_genotypes.py:106-110 | each genotype adds a tab and at least one digit or sign, so a row with genotypes starts its columns with a tab |
| Genotyping.ColumnsRoundTrip | combine_genotypes.py:106-110 | the genotype columns of a row read back as the values written |
| Genotyping.GenotypeLineReadsBack | combine_genotypes.py:102-115 | the written line is the key, one column per ordered individual holding its genotype (2 under the override), then a newline |
| Genotyping.Lookup | combine_genotypes.py:164 | it fails exactly when an individual is missing from the map; otherwise it gives each individual's genotype in order |
| Genotyping.RegionRow | combine_genotypes.py:164-165 | a region row can be written exactly when every individual has a genotype |
| Genotyping.RegionRowReadsBack | combine_genotypes.py:164-165 | a region row splits back into contig, start, end and name, then one field per individual holding its genotype |
| Genotyping.Header | combine_genotypes.py:155 | the header ends with a newline and, for individuals without newlines, is a single line |
| Genotyping.HeaderMatchesRows | combine_genotypes.py:154-155 | the header splits into the four region column names followed by the individuals, in the genotype columns' order |
| Text.SplitJoin | plots/gene_gram.py:199 | joining separator-free parts and splitting again gives back the parts |
| Text.IntToStringRoundTrip | combine_genotypes.py:110 | a `%d`-rendered integer reads back as the same integer |
| StringOrder.Sort | plots/gene_gram.py:199 | `sorted` returns a permutation of its input in Python's string order |
| StringOrder.SortPermutationInvariant | plots/gene_gram.py:199 | `sorted` gives the same list for any two arrangements of the same parts |
| GeneGram.NPlots | plots/gene_gram.py:12-18 | no plots for no samples; otherwise the ceiling of samples over samples-per-plot, the least count whose plots hold every sample |
| GeneGram.PlotPlan | plots/gene_gram.py:207-216 | there are no plots for no samples and otherwise the ceiling of samples over spp; plot i covers samples [i·spp, min(i·spp + spp, n)); so the ranges start at sample 0, follow one another without gap or overlap, end at the last sample, and each holds between 1 and spp samples; each plot's name follows the one-plot or many-plot pattern |
| GeneGram.TilesPartition | plots/gene_gram.py:207-216 | every sample index lies in exactly one plot range, and no range holds an index outside the samples |
| GeneGram.PlotName | plots/gene_gram.py:213-216 | with a dot-free prefix and type, the name splits on `.` back into the prefix, the plot number (several plots only) and the type |
| GeneGram.PlotNamesDistinct | plots/gene_gram.py:213-216 | when several plots are made, no two share a file name |
| GeneGram.SampleOrder | plots/gene_gram.py:190 | a sample is in the order exactly when it is listed in the pop file and is a column of the table |
| GeneGram.SampleOrderSubsequence | plots/gene_gram.py:190 | the order is a subsequence of the pop file, and each present sample occurs as often as listed |
| GeneGram.SampleOrderLabelled | plots/gene_gram.py:190-196 | every sample of the order has a pop-file entry, so the label lookups succeed |
| GeneGram.NormalizeName | plots/gene_gram.py:199 | a normalised name holds no comma |
| GeneGram.NormalizeOrderIndependent | plots/gene_gram.py:199 | names with the same comma-separated parts, in any order, normalise alike |
| GeneGram.NormalizeParts | plots/gene_gram.py:199 | a name written as comma-separated parts normalises to those parts in sorted order joined by underscores |
| GeneGram.NormalizeIdempotent | plots/gene_gram.py:199 | normalising a normalised name changes nothing |
| GeneGram.FirstUncoloured | plots/gene_gram.py:62-72 | it finds a sample whose group has no colour exactly when some sample's group is missing from the colour column |
| GeneGram.ColumnLabels | plots/gene_gram.py:61-75 | it fails exactly when the colour column has more than ten distinct groups (the `IndexError` of line 62, reported first) or a sample's group is not in that column (the `KeyError` of line 72); otherwise one label per sample: every label is a vertical bar without sample names; the names themselves without annotation; with annotation, each label splits back into the sample name, `_`, and its group |
| GeneGram.PlottedGroups | plots/gene_gram.py:196 | the colour column after the cut holds, for each plotted sample in sample order, that sample's group |
| GeneGram.LabelsForSampleOrder | plots/gene_gram.py:61-75 | with the pop table cut down to the sample order as line 196 does, no plotted sample's group lacks a colour, the labels are made exactly when the plotted samples have at most ten distinct groups, and the only failure is running out of colours |

## Left out

- The mixture-model genotyper, the depth-matrix extraction and GC correction (`gt.genotyper`, `get_gt_matrix`, `simple_GMM_genotype`, `GMM_genotype`) are foreign code; the fitted genotypes are an input.
- File and table I/O, the option parsers, pandas `read_csv`/`read_table`, and console printing are left out; tables are sequences of rows.
- The driver loop of the batch script (lines 157-166) is modelled one row at a time (`Genotyping.RegionRow`), not as a loop over the region file.
- `max_cp` is only passed to the foreign genotyper and is not modelled.
- Floating point is exact `real` arithmetic; NaN appears only as the `None` of a missing estimate or of an empty mean.
- numpy's 64-bit integers are unbounded integers; no wrap-around is modelled.
- The heatmap drawing in `plot_heatmap` (clustering, dendrograms, colour maps, axes, legend, saving) is rendering and is not modelled; only the label list it draws is.
- The `not color_indivs` branch of `plot_heatmap` (gene_gram.py:48-59) is not modelled: `color_indivs` is only bound when a colour column is given, so that branch raises before it runs.
- The `pop_to_num` tally (gene_gram.py:27-33) is never used and is left out.
- The re-sorting of the pop file (gene_gram.py:188) and of the table by name (gene_gram.py:200) are left out; the sample order takes the pop file in the order given.
- The `applymap` cap at 10 (gene_gram.py:202) discards its result and so has no effect; it is left out.
- MergeX.Query: the hits come in table order, while bx-python's interval tree returns them sorted by start. Only the tie-break between equally good matches can depend on this.
- MergeX.MergeXTables: requires every row of both tables to be a proper interval (start < end). In the source a reversed row (start > end) in either table stops the run at line 53, where bx-python's `Interval` rejects it. An empty row (start == end) passes line 53. It is emitted when nothing meets it: a female row that meets no male row (line 69), or a male row that no female row meets (line 73). When it takes part in an overlap computation it causes a division by zero (line 64). The model covers none of these rows.
- RegionPartition.RegionsPerSubset: requires at least one subset and a subset number between 1 and the number of subsets. The source does not check either.
- GeneGram.NPlots: requires a positive samples-per-plot whenever there are samples. Otherwise the source's loop does not end.
- GeneGram.PlotPlan: it takes the same precondition, and the samples-per-plot default stands in for an absent `--spp`.

=== FILE: copy_numbers.dfy ===
/** The per-individual copy-number vector of one region (`get_cps`): one
    hard-coded individual is dropped and NaN estimates become 0.0. */
module CopyNumbers {
  import opened Wrappers
  import Seqs

  /** The individual excluded from every region. */
  const Excluded: string := "WEA_Polish_ND15865_M"

  /** One row of the region's table: an individual and its copy-number
      estimate, `None` standing for NaN. */
  datatype Sample = Sample(indiv: string, cp: Option<real>)

  /** The two aligned arrays `get_cps` returns. */
  datatype CopyNumbers = CopyNumbers(cps: seq<real>, indivs: seq<string>)

  /** NaN becomes 0.0; any other value is kept. */
  function Clean(v: Option<real>): real
  {
    match v
    case None => 0.0
    case Some(x) => x
  }

  function Included(): Sample -> bool
  {
    (s: Sample) => s.indiv != Excluded
  }

  /** `get_cps(t)`. */
  function GetCps(t: seq<Sample>): (r: CopyNumbers)
    ensures |r.cps| == |r.indivs| == |t| - Seqs.CountIf(t, (s: Sample) => s.indiv == Excluded)
    ensures Excluded !in r.indivs
    ensures forall i :: 0 <= i < |r.indivs| ==>
              exists j :: 0 <= j < |t| && t[j].indiv == r.indivs[i] && r.cps[i] == Clean(t[j].cp)
  {
    var kept := Seqs.Filter(t, Included());
    Seqs.FilterLength(t, Included());
    CountComplement(t);
    forall i | 0 <= i < |kept| ensures exists j :: 0 <= j < |t| && t[j] == kept[i] {
      assert kept[i] in kept;
    }
    CopyNumbers(Values(kept), Names(kept))
  }

  function Values(rows: seq<Sample>): (v: seq<real>)
    ensures |v| == |rows|
    ensures forall i :: 0 <= i < |rows| ==> v[i] == Clean(rows[i].cp)
  {
    seq(|rows|, i requires 0 <= i < |rows| => Clean(rows[i].cp))
  }

  function Names(rows: seq<Sample>): (n: seq<string>)
    ensures |n| == |rows|
    ensures forall i :: 0 <= i < |rows| ==> n[i] == rows[i].indiv
  {
    seq(|rows|, i requires 0 <= i < |rows| => rows[i].indiv)
  }

  /** Rows are either kept or excluded. */
  lemma {:induction false} CountComplement(t: seq<Sample>)
    ensures Seqs.CountIf(t, Included()) + Seqs.CountIf(t, (s: Sample) => s.indiv == Excluded) == |t|
    decreases |t|
  {
    if |t| > 0 {
      CountComplement(t[1..]);
    }
  }

  /** `get_cps` works row by row: the result for a concatenation is the
      concatenation of the results, so relative order and the pairing of
      values with individuals are kept. */
  lemma GetCpsAppend(t: seq<Sample>, u: seq<Sample>)
    ensures GetCps(t + u).cps == GetCps(t).cps + GetCps(u).cps
    ensures GetCps(t + u).indivs == GetCps(t).indivs + GetCps(u).indivs
  {
    Seqs.FilterAppend(t, u, Included());
    var a := Seqs.Filter(t, Included());
    var b := Seqs.Filter(u, Included());
    ValuesNamesAppend(a, b);
    assert GetCps(t + u) == CopyNumbers(Values(a + b), Names(a + b));
    assert GetCps(t) == CopyNumbers(Values(a), Names(a));
    assert GetCps(u) == CopyNumbers(Values(b), Names(b));
  }

  lemma ValuesNamesAppend(a: seq<Sample>, b: seq<Sample>)
    ensures Values(a + b) == Values(a) + Values(b)
    ensures Names(a + b) == Names(a) + Names(b)
  {
    assert Values(a + b) == Values(a) + Values(b);
    assert Names(a + b) == Names(a) + Names(b);
  }

  /** A single row: the excluded individual yields nothing; anyone else
      yields its individual and its cleaned value. */
  lemma GetCpsSingle(s: Sample)
    ensures s.indiv == Excluded ==> GetCps([s]) == CopyNumbers([], [])
    ensures s.indiv != Excluded ==> GetCps([s]) == CopyNumbers([Clean(s.cp)], [s.indiv])
  {
    assert [s][1..] == [];
  }

  /** Nothing else changes: without the excluded individual and without
      NaN, the arrays are the table's columns unchanged. */
  lemma GetCpsIdentity(t: seq<Sample>)
    requires forall i :: 0 <= i < |t| ==> t[i].indiv != Excluded && t[i].cp.Some?
    ensures |GetCps(t).cps| == |t|
    ensures forall i :: 0 <= i < |t| ==>
              GetCps(t).indivs[i] == t[i].indiv && GetCps(t).cps[i] == t[i].cp.value
  {
    Seqs.FilterAll(t, Included());
  }
}

=== FILE: gene_gram.dfy ===
/** The bookkeeping of the heatmap script (plots/gene_gram.py): which
    samples are plotted and in what order, how they are cut into one plot
    per `spp` samples and what each plot file is called, how region names
    are normalised, and the column labels. The drawing itself is not part
    of this model. */
module GeneGram {
  import opened Wrappers
  import Text
  import Seqs
  import StringOrder

  // ---------------------------------------------------------------------
  // Number of plots

  /** `get_nplots(nsamples, spp)`: subtracts `spp` until nothing is left.
      The loop ends only if it never starts or `spp` is positive. */
  method NPlots(nsamples: int, spp: int) returns (nplots: nat)
    requires nsamples <= 0 || spp > 0
    ensures nsamples <= 0 ==> nplots == 0
    ensures nsamples > 0 ==> (nplots - 1) * spp < nsamples <= nplots * spp
    ensures nsamples > 0 ==> nplots == CeilDiv(nsamples, spp)
  {
    nplots := 0;
    var remaining := nsamples;
    while remaining > 0
      invariant remaining == nsamples - nplots * spp
      invariant nplots > 0 ==> nsamples > 0 && spp > 0 && remaining + spp > 0
      decreases if remaining > 0 then remaining else 0
    {
      remaining := remaining - spp;
      nplots := nplots + 1;
    }
    if nsamples > 0 {
      CeilDivUnique(nsamples, spp, nplots);
    }
  }

  /** The reference count: the ceiling of n / d. */
  function CeilDiv(n: int, d: int): int
    requires d > 0
  {
    (n + d - 1) / d
  }

  /** The only k with (k-1)*d < n <= k*d is the ceiling of n / d. */
  lemma CeilDivUnique(n: int, d: int, k: int)
    requires d > 0
    requires (k - 1) * d < n <= k * d
    ensures k == CeilDiv(n, d)
  {
    var x := n + d - 1;
    assert (k - 1) * d == k * d - d;
    assert k * d <= x < k * d + d;
    DivUnique(x, d, k);
  }

  lemma DivUnique(x: int, d: int, q: int)
    requires d > 0
    requires q * d <= x < q * d + d
    ensures x / d == q
  {
    var r := x / d;
    assert x == r * d + x % d && 0 <= x % d < d;
    if r < q {
      MulStrict(r, q, d);
      assert false;
    } else if r > q {
      MulStrict(q, r, d);
      assert false;
    }
  }

  lemma MulStrict(a: int, b: int, d: int)
    requires a < b && d > 0
    ensures a * d + d <= b * d
  {
    var c := b - a;
    assert b * d == a * d + c * d;
    assert c * d == (c - 1) * d + d;
    assert (c - 1) * d >= 0;
  }

  // ---------------------------------------------------------------------
  // Plot ranges and file names

  /** One plot: its file name and its sample range [first, stop). */
  datatype Plot = Plot(name: string, first: int, stop: int)

  /** The plot file name: `prefix.i.type` when several plots are made,
      `prefix.type` for a single one. */
  function PlotName(prefix: string, i: int, nplots: int, plotType: string): (r: string)
    ensures '.' !in prefix && '.' !in plotType ==>
              Text.Split(r, '.') == NameParts(prefix, i, nplots, plotType)
  {
    NamePartsReadBack(prefix, i, nplots, plotType);
    Text.Join(NameParts(prefix, i, nplots, plotType), '.')
  }

  /** The dot-separated pieces of a plot file name. */
  function NameParts(prefix: string, i: int, nplots: int, plotType: string): seq<string>
  {
    if nplots > 1 then [prefix, Text.IntToString(i), plotType] else [prefix, plotType]
  }

  lemma NamePartsReadBack(prefix: string, i: int, nplots: int, plotType: string)
    ensures '.' !in prefix && '.' !in plotType ==>
              Text.Split(Text.Join(NameParts(prefix, i, nplots, plotType), '.'), '.') == NameParts(prefix, i, nplots, plotType)
  {
    if '.' !in prefix && '.' !in plotType {
      Text.IntToStringAvoids(i, '.');
      Text.SplitJoin(NameParts(prefix, i, nplots, plotType), '.');
    }
  }

  /** The ranges tile [0, n) in order, each non-empty and at most `width`
      wide. */
  predicate Tiles(plots: seq<Plot>, n: int, width: int)
  {
    && (|plots| == 0 <==> n <= 0)
    && (|plots| > 0 ==> plots[0].first == 0 && plots[|plots| - 1].stop == n)
    && (forall i :: 0 <= i < |plots| ==> plots[i].first < plots[i].stop <= plots[i].first + width)
    && (forall i :: 0 <= i < |plots| - 1 ==> plots[i + 1].first == plots[i].stop)
  }

  /** The loop of the main block: `spp` defaults to the number of samples;
      plot i covers samples [i*spp, min(i*spp + spp, nsamples)). */
  method PlotPlan(nsamples: nat, spp: Option<int>, prefix: string, plotType: string)
    returns (plots: seq<Plot>)
    requires spp.None? || spp.value > 0 || nsamples == 0
    ensures var width := if spp.None? then nsamples else spp.value;
            Tiles(plots, nsamples, width)
    ensures var width := if spp.None? then nsamples else spp.value;
            |plots| == if nsamples == 0 then 0 else CeilDiv(nsamples, width)
    ensures var width := if spp.None? then nsamples else spp.value;
            forall i :: 0 <= i < |plots| ==>
              plots[i].first == i * width && plots[i].stop == Seqs.Min(i * width + width, nsamples)
    ensures forall i :: 0 <= i < |plots| ==> plots[i].name == PlotName(prefix, i, |plots|, plotType)
  {
    var width := if spp.None? then nsamples else spp.value;
    var nplots := NPlots(nsamples, width);
    plots := [];
    var i := 0;
    while i < nplots
      invariant 0 <= i <= nplots
      invariant |plots| == i
      invariant forall j :: 0 <= j < i ==> plots[j].first == j * width
      invariant forall j :: 0 <= j < i ==> plots[j].stop == Seqs.Min(j * width + width, nsamples)
      invariant forall j :: 0 <= j < i ==> plots[j].name == PlotName(prefix, j, nplots, plotType)
    {
      var startSample := i * width;
      var endSample := Seqs.Min(i * width + width, nsamples);
      plots := plots + [Plot(PlotName(prefix, i, nplots, plotType), startSample, endSample)];
      i := i + 1;
    }
    PlanTiles(plots, nsamples, width, nplots);
  }

  /** The arithmetic behind the tiling of the plot loop. */
  lemma PlanTiles(plots: seq<Plot>, n: int, width: int, nplots: nat)
    requires n >= 0 && (n == 0 || width > 0)
    requires n <= 0 ==> nplots == 0
    requires n > 0 ==> (nplots - 1) * width < n <= nplots * width
    requires |plots| == nplots
    requires forall j :: 0 <= j < nplots ==> plots[j].first == j * width
    requires forall j :: 0 <= j < nplots ==> plots[j].stop == Seqs.Min(j * width + width, n)
    ensures Tiles(plots, n, width)
  {
    if nplots > 0 {
      forall j | 0 <= j < nplots ensures plots[j].first < plots[j].stop <= plots[j].first + width {
        assert j * width <= (nplots - 1) * width by { MulMonotone(j, nplots - 1, width); }
      }
      forall j | 0 <= j < nplots - 1 ensures plots[j + 1].first == plots[j].stop {
        assert (j + 1) * width == j * width + width;
        assert (j + 1) * width <= (nplots - 1) * width by { MulMonotone(j + 1, nplots - 1, width); }
      }
      assert (nplots - 1) * width + width == nplots * width;
    }
  }

  lemma MulMonotone(a: int, b: int, d: int)
    requires 0 <= a <= b && d >= 0
    ensures a * d <= b * d
  {
    assert b * d - a * d == (b - a) * d;
  }

  /** Tiling ranges hold every sample index in exactly one plot. */
  lemma {:induction false} TilesPartition(plots: seq<Plot>, n: int, width: int, s: int)
    requires Tiles(plots, n, width)
    ensures 0 <= s < n <==> exists i :: 0 <= i < |plots| && plots[i].first <= s < plots[i].stop
    ensures forall i, j ::
              (0 <= i < |plots| && 0 <= j < |plots| &&
               plots[i].first <= s < plots[i].stop && plots[j].first <= s < plots[j].stop) ==> i == j
  {
    forall i, j | 0 <= i < j < |plots| ensures plots[i].stop <= plots[j].first {
      TilesOrdered(plots, n, width, i, j);
    }
    if 0 <= s < n {
      TilesCover(plots, n, width, |plots| - 1, s);
    }
    if exists i :: 0 <= i < |plots| && plots[i].first <= s < plots[i].stop {
      var i :| 0 <= i < |plots| && plots[i].first <= s < plots[i].stop;
      if i > 0 {
        TilesOrdered(plots, n, width, 0, i);
      }
      if i < |plots| - 1 {
        TilesOrdered(plots, n, width, i, |plots| - 1);
      }
    }
  }

  lemma {:induction false} TilesOrdered(plots: seq<Plot>, n: int, width: int, i: int, j: int)
    requires Tiles(plots, n, width)
    requires 0 <= i < j < |plots|
    ensures plots[i].stop <= plots[j].first
    decreases j - i
  {
    if i + 1 < j {
      TilesOrdered(plots, n, width, i + 1, j);
    }
  }

  lemma {:induction false} TilesCover(plots: seq<Plot>, n: int, width: int, k: int, s: int)
    requires Tiles(plots, n, width)
    requires 0 <= k < |plots| && 0 <= s < plots[k].stop
    ensures exists i :: 0 <= i <= k && plots[i].first <= s < plots[i].stop
    decreases k
  {
    if s < plots[k].first {
      TilesCover(plots, n, width, k - 1, s);
      var i :| 0 <= i <= k - 1 && plots[i].first <= s < plots[i].stop;
    }
  }

  /** Several plots never share a file name. */
  lemma PlotNamesDistinct(prefix: string, plotType: string, nplots: int, i: int, j: int)
    requires nplots > 1 && i != j
    ensures PlotName(prefix, i, nplots, plotType) != PlotName(prefix, j, nplots, plotType)
  {
    var si := Text.IntToString(i);
    var sj := Text.IntToString(j);
    var a := PlotName(prefix, i, nplots, plotType);
    var b := PlotName(prefix, j, nplots, plotType);
    assert [prefix, si, plotType][1..] == [si, plotType];
    assert [si, plotType][1..] == [plotType];
    assert [prefix, sj, plotType][1..] == [sj, plotType];
    assert [sj, plotType][1..] == [plotType];
    assert Text.Join([plotType], '.') == plotType;
    assert Text.Join([si, plotType], '.') == si + ['.'] + plotType;
    assert Text.Join([sj, plotType], '.') == sj + ['.'] + plotType;
    assert a == prefix + ['.'] + (si + ['.'] + plotType);
    assert b == prefix + ['.'] + (sj + ['.'] + plotType);
    if a == b {
      assert a == (prefix + ['.']) + si + (['.'] + plotType);
      assert b == (prefix + ['.']) + sj + (['.'] + plotType);
      MiddleCancel(prefix + ['.'], si, sj, ['.'] + plotType);
      Text.IntToStringInjective(i, j);
    }
  }

  /** Equal strings with a common prefix and suffix agree in the middle. */
  lemma MiddleCancel(x: string, y1: string, y2: string, z: string)
    requires x + y1 + z == x + y2 + z
    ensures y1 == y2
  {
    assert |y1| == |y2|;
    forall k | 0 <= k < |y1| ensures y1[k] == y2[k] {
      assert (x + y1 + z)[|x| + k] == y1[k];
      assert (x + y2 + z)[|x| + k] == y2[k];
    }
  }

  // ---------------------------------------------------------------------
  // Sample order

  /** `sample_order`: the pop-file samples, in pop-file order, that are
      columns of the genotype table. */
  function SampleOrder(popSamples: seq<string>, columns: seq<string>): (order: seq<string>)
    ensures forall s :: s in order <==> s in popSamples && s in columns
  {
    Seqs.Filter(popSamples, (s: string) => s in columns)
  }

  /** The sample order is a subsequence of the pop file: nothing foreign,
      nothing reordered, and every present sample as often as listed. */
  lemma SampleOrderSubsequence(popSamples: seq<string>, columns: seq<string>)
    ensures Seqs.IsSubsequence(SampleOrder(popSamples, columns), popSamples)
    ensures forall s :: multiset(SampleOrder(popSamples, columns))[s]
                        == if s in columns then multiset(popSamples)[s] else 0
  {
    Seqs.FilterIsSubsequence(popSamples, (s: string) => s in columns);
    forall s {
      Seqs.FilterCounts(popSamples, (s: string) => s in columns, s);
    }
  }

  // ---------------------------------------------------------------------
  // Region names

  /** `"_".join(sorted(name.split(",")))`: the comma-separated parts,
      sorted and joined by underscores, so no comma is left. */
  function NormalizeName(name: string): (r: string)
    ensures ',' !in r
  {
    var parts := StringOrder.Sort(Text.Split(name, ','));
    SortedPartsCommaFree(name);
    Text.JoinAvoids(parts, '_', ',');
    Text.Join(parts, '_')
  }

  lemma SortedPartsCommaFree(name: string)
    ensures Text.FreeOf(StringOrder.Sort(Text.Split(name, ',')), ',')
  {
    var parts := StringOrder.Sort(Text.Split(name, ','));
    forall i | 0 <= i < |parts| ensures ',' !in parts[i] {
      assert parts[i] in multiset(Text.Split(name, ','));
    }
  }

  /** The normalised name does not depend on the order of the parts. */
  lemma NormalizeOrderIndependent(x: string, y: string)
    requires multiset(Text.Split(x, ',')) == multiset(Text.Split(y, ','))
    ensures NormalizeName(x) == NormalizeName(y)
  {
    StringOrder.SortPermutationInvariant(Text.Split(x, ','), Text.Split(y, ','));
  }

  /** Written as comma-separated parts, a name normalises to its parts in
      sorted order joined by underscores, whatever order they came in. */
  lemma NormalizeParts(parts: seq<string>)
    requires |parts| >= 1 && Text.FreeOf(parts, ',')
    ensures NormalizeName(Text.Join(parts, ',')) == Text.Join(StringOrder.Sort(parts), '_')
  {
    Text.SplitJoin(parts, ',');
  }

  /** Normalising twice is normalising once. */
  lemma NormalizeIdempotent(name: string)
    ensures NormalizeName(NormalizeName(name)) == NormalizeName(name)
  {
    var once := NormalizeName(name);
    Text.SplitFree(once, ',');
    StringOrder.BelowReflexive(once);
    assert StringOrder.Sorted([once]);
    StringOrder.SortSorted([once]);
  }

  // ---------------------------------------------------------------------
  // Column labels

  /** The sample's label: its name, followed by `_` and its group when
      `annotate_index` is set. */
  function Label(col: string, popOf: map<string, string>, annotate: bool): string
    requires col in popOf
  {
    if annotate then col + "_" + popOf[col] else col
  }

  /** `color_order`: one colour per group of the colour column. */
  const Palette: seq<string> := ["red", "y", "g", "b", "purple", "k", "orange", "c", "firebrick", "gray"]

  /** Why the colour branch of `plot_heatmap` stops before drawing. */
  datatype LabelError =
    | TooManyGroups(count: nat)   // IndexError: `color_order` has no colour left
    | UncolouredGroup(group: string)   // KeyError: a group missing from `color_dict`

  /** The distinct groups of the colour column, as `unique()` finds them. */
  function GroupCount(groups: seq<string>): nat
  {
    |set g | g in groups|
  }

  /** The group of the first sample whose group has no colour, if any. */
  function FirstUncoloured(cols: seq<string>, popOf: map<string, string>, groups: seq<string>): (g: Option<string>)
    requires forall i :: 0 <= i < |cols| ==> cols[i] in popOf
    ensures g.None? <==> forall i :: 0 <= i < |cols| ==> popOf[cols[i]] in groups
    ensures g.Some? ==> g.value !in groups
    decreases |cols|
  {
    if |cols| == 0 then None
    else if popOf[cols[0]] !in groups then Some(popOf[cols[0]])
    else FirstUncoloured(cols[1..], popOf, groups)
  }

  /** `col_labels` for the samples `cols`, where `popOf` gives each sample's
      group and `groups` is the whole colour column of the pop table,
      after the optional `sample_names` blanking. `color_dict` is built
      first and takes one colour per distinct group; every sample's group
      is then looked up in it. */
  function ColumnLabels(cols: seq<string>, popOf: map<string, string>, groups: seq<string>,
                        annotate: bool, sampleNames: bool): (r: Result<seq<string>, LabelError>)
    requires forall i :: 0 <= i < |cols| ==> cols[i] in popOf
    ensures r.Failure? <==> GroupCount(groups) > |Palette| ||
                            exists i :: 0 <= i < |cols| && popOf[cols[i]] !in groups
    ensures r.Failure? && GroupCount(groups) > |Palette| ==> r.error == TooManyGroups(GroupCount(groups))
    ensures r.Failure? && GroupCount(groups) <= |Palette| ==> r.error.UncolouredGroup? && r.error.group !in groups
    ensures r.Success? ==> |r.value| == |cols|
    ensures r.Success? && !sampleNames ==> forall i :: 0 <= i < |r.value| ==> r.value[i] == "|"
    ensures r.Success? && sampleNames && !annotate ==> r.value == cols
    ensures r.Success? && sampleNames && annotate ==> forall i :: 0 <= i < |r.value| ==>
              && |r.value[i]| == |cols[i]| + 1 + |popOf[cols[i]]|
              && r.value[i][..|cols[i]|] == cols[i]
              && r.value[i][|cols[i]|] == '_'
              && r.value[i][|cols[i]| + 1..] == popOf[cols[i]]
  {
    if GroupCount(groups) > |Palette| then Failure(TooManyGroups(GroupCount(groups)))
    else match FirstUncoloured(cols, popOf, groups)
    case Some(g) => Failure(UncolouredGroup(g))
    case None =>
      var named := seq(|cols|, i requires 0 <= i < |cols| => Label(cols[i], popOf, annotate));
      Success(if sampleNames then named else seq(|named|, _ => "|"))
  }

  /** The colour column `plot_heatmap` receives: the main block cuts the
      pop table down to the plotted samples, in sample order, before
      plotting. */
  function PlottedGroups(order: seq<string>, popOf: map<string, string>): (groups: seq<string>)
    requires forall i :: 0 <= i < |order| ==> order[i] in popOf
    ensures |groups| == |order|
    ensures forall i :: 0 <= i < |order| ==> groups[i] == popOf[order[i]]
  {
    seq(|order|, i requires 0 <= i < |order| => popOf[order[i]])
  }

  /** As the script calls it, with the pop table cut down to the sample
      order, every plotted sample's group has a colour, and the labels are
      made exactly when the plotted samples fall into at most ten distinct
      groups; otherwise the only failure is running out of colours. */
  lemma LabelsForSampleOrder(popSamples: seq<string>, columns: seq<string>, popOf: map<string, string>,
                             annotate: bool, sampleNames: bool)
    requires forall i :: 0 <= i < |popSamples| ==> popSamples[i] in popOf
    ensures forall i :: 0 <= i < |SampleOrder(popSamples, columns)| ==> SampleOrder(popSamples, columns)[i] in popOf
    ensures var order := SampleOrder(popSamples, columns);
            var groups := PlottedGroups(order, popOf);
            && FirstUncoloured(order, popOf, groups).None?
            && (ColumnLabels(order, popOf, groups, annotate, sampleNames).Success? <==> GroupCount(groups) <= 10)
            && (ColumnLabels(order, popOf, groups, annotate, sampleNames).Failure? ==>
                  ColumnLabels(order, popOf, groups, annotate, sampleNames).error == TooManyGroups(GroupCount(groups)))
  {
    var order := SampleOrder(popSamples, columns);
    SampleOrderLabelled(popSamples, columns, popOf);
    var groups := PlottedGroups(order, popOf);
    forall i | 0 <= i < |order| ensures popOf[order[i]] in groups {
      assert groups[i] == popOf[order[i]];
    }
  }

  /** Every sample of the sample order has a pop-file entry, so the label
      lookups of the plotting step cannot fail. */
  lemma SampleOrderLabelled(popSamples: seq<string>, columns: seq<string>, popOf: map<string, string>)
    requires forall i :: 0 <= i < |popSamples| ==> popSamples[i] in popOf
    ensures forall i :: 0 <= i < |SampleOrder(popSamples, columns)| ==> SampleOrder(popSamples, columns)[i] in popOf
  {
    var order := SampleOrder(popSamples, columns);
    forall i | 0 <= i < |order| ensures order[i] in popOf {
      assert order[i] in order;
      var j :| 0 <= j < |popSamples| && popSamples[j] == order[i];
    }
  }
}

=== FILE: genotyping.dfy ===
/** Building and routing one output row of genotypes (`genotype` in
    combine_genotypes.py), and the region row and header of the batch
    driver. The genotype of each individual comes from a mixture-model fit
    that is not part of this model: it is an input, `gts`, mapping each
    individual to its integer copy number. */
module Genotyping {
  import opened Wrappers
  import Text
  import Seqs
  import CopyNumbers

  const Tab: char := '\t'
  const Newline: string := "\n"

  /** The copy number forced on every individual by the override. */
  const Diploid: int := 2

  /** The mean copy number from which a uniform call is overridden. */
  const MinMean: real := 0.25

  /** What the source raises instead of writing a row: `all_gts[0]` of an
      empty genotype map (IndexError) or a lookup of an individual the map
      lacks (KeyError). */
  datatype Error = NoGenotypes | MissingGenotype(indiv: string)

  /** The chunks written so far to the filtered stream `FOUT` and to the
      complete stream `FOUT_all`. */
  datatype Streams = Streams(filtered: seq<string>, all: seq<string>)

  // ---------------------------------------------------------------------
  // The decision

  function Sum(xs: seq<real>): real
    decreases |xs|
  {
    if |xs| == 0 then 0.0 else xs[0] + Sum(xs[1..])
  }

  /** `np.mean`; `None` stands for the NaN numpy yields on no values. */
  function Mean(xs: seq<real>): (mu: Option<real>)
    ensures mu.None? <==> |xs| == 0
  {
    if |xs| == 0 then None else Some(Sum(xs) / |xs| as real)
  }

  /** Every individual received the same genotype. */
  predicate Uniform(gts: map<string, int>)
  {
    forall a, b :: a in gts && b in gts ==> gts[a] == gts[b]
  }

  /** `mu >= 0.25`, which is false for NaN. */
  predicate MeanHighEnough(mu: Option<real>)
  {
    mu.Some? && mu.value >= MinMean
  }

  /** The diploid override: a uniform call with enough signal. */
  predicate Override(gts: map<string, int>, mu: Option<real>)
  {
    Uniform(gts) && MeanHighEnough(mu)
  }

  /** The first individual of `ordered` the map lacks, if any. */
  function FirstMissing(ordered: seq<string>, gts: map<string, int>): (m: Option<string>)
    ensures m.None? <==> forall i :: 0 <= i < |ordered| ==> ordered[i] in gts
    ensures m.Some? ==> m.value in ordered && m.value !in gts
    ensures m.Some? ==> exists i :: 0 <= i < |ordered| && ordered[i] == m.value &&
                                  forall j :: 0 <= j < i ==> ordered[j] in gts
    decreases |ordered|
  {
    if |ordered| == 0 then None
    else if ordered[0] !in gts then Some(ordered[0])
    else FirstMissing(ordered[1..], gts)
  }

  /** The genotypes in column order: the override writes 2 for everyone
      without looking anyone up; otherwise each individual's own call. */
  function RowValues(gts: map<string, int>, mu: Option<real>, ordered: seq<string>): (r: Result<seq<int>, Error>)
    ensures r.Failure? <==> !Override(gts, mu) && FirstMissing(ordered, gts).Some?
    ensures r.Failure? ==> r.error == MissingGenotype(FirstMissing(ordered, gts).value)
    ensures r.Success? ==> |r.value| == |ordered|
    ensures r.Success? && Override(gts, mu) ==> forall i :: 0 <= i < |ordered| ==> r.value[i] == Diploid
    ensures r.Success? && !Override(gts, mu) ==>
              forall i :: 0 <= i < |ordered| ==> ordered[i] in gts && r.value[i] == gts[ordered[i]]
  {
    if Override(gts, mu) then Success(seq(|ordered|, _ => Diploid))
    else match FirstMissing(ordered, gts)
      case Some(m) => Failure(MissingGenotype(m))
      case None => Success(seq(|ordered|, i requires 0 <= i < |ordered| => gts[ordered[i]]))
  }

  /** `n_0s`: the zero genotypes counted while writing; the override
      writes without counting. */
  function ZeroCount(gts: map<string, int>, mu: Option<real>, values: seq<int>): (n: nat)
    ensures n <= |values|
    ensures Override(gts, mu) ==> n == 0
  {
    if Override(gts, mu) then 0 else Seqs.CountIf(values, (g: int) => g == 0)
  }

  /** `"%s\t%d" % (outstr, g)` for each value in turn. */
  function Columns(values: seq<int>): (r: string)
    ensures |r| >= 2 * |values|
    ensures |values| > 0 ==> r[0] == Tab
    decreases |values|
  {
    if |values| == 0 then "" else [Tab] + Text.IntToString(values[0]) + Columns(values[1..])
  }

  /** `genotype(gt, t, keystr, FOUT, FOUT_all, ordered_indivs)` with the
      fitted genotypes `gts` given. */
  function Genotype(t: seq<CopyNumbers.Sample>, gts: map<string, int>, keystr: string,
                    ordered: seq<string>, out: Streams): (r: Result<Streams, Error>)
    ensures r.Failure? <==> |gts| == 0 || (!Override(gts, Mean(CopyNumbers.GetCps(t).cps)) && FirstMissing(ordered, gts).Some?)
    ensures r.Failure? ==> r.error == if |gts| == 0 then NoGenotypes else MissingGenotype(FirstMissing(ordered, gts).value)
    ensures r.Success? ==>
              && |r.value.all| == |out.all| + 1 && r.value.all[..|out.all|] == out.all
              && (r.value.filtered == out.filtered || r.value.filtered == out.filtered + [r.value.all[|out.all|]])
  {
    var cn := CopyNumbers.GetCps(t);
    var mu := Mean(cn.cps);
    if |gts| == 0 then Failure(NoGenotypes)
    else match RowValues(gts, mu, ordered)
      case Failure(e) => Failure(e)
      case Success(values) =>
        var line := keystr + Columns(values) + Newline;
        var informative := ZeroCount(gts, mu, values) != |cn.indivs|;
        Success(Streams(out.filtered + (if informative then [line] else []), out.all + [line]))
  }

  // ---------------------------------------------------------------------
  // Properties of the decision

  /** Under the override every individual is written as 2, and the row is
      filtered in exactly when the cohort is not empty. */
  lemma OverrideRow(t: seq<CopyNumbers.Sample>, gts: map<string, int>, keystr: string,
                    ordered: seq<string>, out: Streams)
    requires |gts| > 0
    requires Override(gts, Mean(CopyNumbers.GetCps(t).cps))
    ensures var r := Genotype(t, gts, keystr, ordered, out);
            && r.Success?
            && r.value.all == out.all + [keystr + Columns(seq(|ordered|, _ => Diploid)) + Newline]
            && (|r.value.filtered| > |out.filtered| <==> |CopyNumbers.GetCps(t).indivs| != 0)
  {
    var mu := Mean(CopyNumbers.GetCps(t).cps);
    assert RowValues(gts, mu, ordered).value == seq(|ordered|, _ => Diploid);
  }

  /** Outside the override, the row goes to the filtered stream exactly
      when the number of zero calls among the ordered individuals differs
      from the number of individuals genotyped. */
  lemma FittedRouting(t: seq<CopyNumbers.Sample>, gts: map<string, int>, keystr: string,
                      ordered: seq<string>, out: Streams)
    requires Genotype(t, gts, keystr, ordered, out).Success?
    requires !Override(gts, Mean(CopyNumbers.GetCps(t).cps))
    ensures var r := Genotype(t, gts, keystr, ordered, out).value;
            var zeros := Seqs.CountIf(ordered, (x: string) => x in gts && gts[x] == 0);
            |r.filtered| > |out.filtered| <==> zeros != |CopyNumbers.GetCps(t).indivs|
  {
    var mu := Mean(CopyNumbers.GetCps(t).cps);
    var values := RowValues(gts, mu, ordered).value;
    ZeroCountMatches(ordered, gts, values);
  }

  lemma {:induction false} ZeroCountMatches(ordered: seq<string>, gts: map<string, int>, values: seq<int>)
    requires |values| == |ordered|
    requires forall i :: 0 <= i < |ordered| ==> ordered[i] in gts && values[i] == gts[ordered[i]]
    ensures Seqs.CountIf(values, (g: int) => g == 0)
         == Seqs.CountIf(ordered, (x: string) => x in gts && gts[x] == 0)
    decreases |ordered|
  {
    if |ordered| > 0 {
      ZeroCountMatches(ordered[1..], gts, values[1..]);
    }
  }

  // ---------------------------------------------------------------------
  // Reading a row back

  /** The decimal rendering of each value. */
  function Strs(values: seq<int>): (s: seq<string>)
    ensures |s| == |values|
    ensures forall i :: 0 <= i < |values| ==> s[i] == Text.IntToString(values[i])
  {
    seq(|values|, i requires 0 <= i < |values| => Text.IntToString(values[i]))
  }

  /** Reads each field as an integer; `None` if one is not. */
  function ParseAll(fields: seq<string>): Option<seq<int>>
    decreases |fields|
  {
    if |fields| == 0 then Some([])
    else match (Text.ParseInt(fields[0]), ParseAll(fields[1..]))
      case (Some(v), Some(vs)) => Some([v] + vs)
      case _ => None
  }

  /** Reads back the genotype columns of a row. */
  function ParseColumns(s: string): Option<seq<int>>
  {
    if |s| == 0 then Some([])
    else if s[0] != Tab then None
    else ParseAll(Text.Split(s[1..], Tab))
  }

  /** The columns are the tab-joined renderings after one leading tab. */
  lemma {:induction false} ColumnsAsJoin(values: seq<int>)
    requires |values| > 0
    ensures Columns(values) == [Tab] + Text.Join(Strs(values), Tab)
    decreases |values|
  {
    if |values| > 1 {
      ColumnsAsJoin(values[1..]);
      assert Strs(values)[1..] == Strs(values[1..]);
    }
  }

  lemma {:induction false} ParseAllStrs(values: seq<int>)
    ensures ParseAll(Strs(values)) == Some(values)
    decreases |values|
  {
    if |values| > 0 {
      Text.IntToStringRoundTrip(values[0]);
      assert Strs(values)[1..] == Strs(values[1..]);
      ParseAllStrs(values[1..]);
      assert values == [values[0]] + values[1..];
    }
  }

  lemma StrsFreeOf(values: seq<int>, c: char)
    requires c != '-' && !Text.IsDigit(c)
    ensures Text.FreeOf(Strs(values), c)
  {
    forall i | 0 <= i < |values| ensures c !in Strs(values)[i] {
      Text.IntToStringAvoids(values[i], c);
    }
  }

  /** The genotype columns of a row read back as the values written. */
  lemma ColumnsRoundTrip(values: seq<int>)
    ensures ParseColumns(Columns(values)) == Some(values)
  {
    if |values| > 0 {
      ColumnsAsJoin(values);
      StrsFreeOf(values, Tab);
      Text.SplitJoin(Strs(values), Tab);
      ParseAllStrs(values);
      assert Columns(values)[1..] == Text.Join(Strs(values), Tab);
    }
  }

  /** The line `genotype` writes is the key, then one column per ordered
      individual that reads back as that individual's written genotype. */
  lemma GenotypeLineReadsBack(t: seq<CopyNumbers.Sample>, gts: map<string, int>, keystr: string,
                              ordered: seq<string>, out: Streams)
    requires Genotype(t, gts, keystr, ordered, out).Success?
    ensures var line := Genotype(t, gts, keystr, ordered, out).value.all[|out.all|];
            && |line| >= |keystr| + 1
            && line[..|keystr|] == keystr
            && line[|line| - 1..] == Newline
            && var values := ParseColumns(line[|keystr|..|line| - 1]);
               && values.Some?
               && |values.value| == |ordered|
               && forall i :: 0 <= i < |ordered| ==>
                    values.value[i] == if Override(gts, Mean(CopyNumbers.GetCps(t).cps)) then Diploid else gts[ordered[i]]
  {
    var mu := Mean(CopyNumbers.GetCps(t).cps);
    var values := RowValues(gts, mu, ordered).value;
    var line := keystr + Columns(values) + Newline;
    assert Genotype(t, gts, keystr, ordered, out).value.all[|out.all|] == line;
    assert line[|keystr|..|line| - 1] == Columns(values);
    ColumnsRoundTrip(values);
  }

  // ---------------------------------------------------------------------
  // The batch driver's region row and header

  /** The genotypes of `indivs` in order; the driver's `gts_by_indiv[i]`
      raises for an individual the map lacks. */
  function Lookup(indivs: seq<string>, gts: map<string, int>): (r: Result<seq<int>, Error>)
    ensures r.Failure? <==> FirstMissing(indivs, gts).Some?
    ensures r.Failure? ==> r.error == MissingGenotype(FirstMissing(indivs, gts).value)
    ensures r.Success? ==> |r.value| == |indivs|
    ensures r.Success? ==> forall i :: 0 <= i < |indivs| ==> r.value[i] == gts[indivs[i]]
  {
    match FirstMissing(indivs, gts)
    case Some(m) => Failure(MissingGenotype(m))
    case None => Success(seq(|indivs|, i requires 0 <= i < |indivs| => gts[indivs[i]]))
  }

  /** `"%s\t%d\t%d\t%s\t%s\n" % (contig, s, e, name, gts)` where `gts`
      is the tab-joined genotypes of `indivs`. */
  function RegionRow(contig: string, start: int, end: int, name: string,
                     indivs: seq<string>, gts: map<string, int>): (r: Result<string, Error>)
    ensures r.Failure? <==> FirstMissing(indivs, gts).Some?
  {
    match Lookup(indivs, gts)
    case Failure(e) => Failure(e)
    case Success(values) =>
      var fields := [contig, Text.IntToString(start), Text.IntToString(end), name, Text.Join(Strs(values), Tab)];
      Success(Text.Join(fields, Tab) + Newline)
  }

  /** The optional header: `"contig\tstart\tend\tname\t%s\n"` with the
      tab-joined individuals. */
  function Header(indivs: seq<string>): (r: string)
    ensures |r| >= 1 && r[|r| - 1] == '\n'
    ensures Text.FreeOf(indivs, '\n') ==> '\n' !in r[..|r| - 1]
  {
    var line := Text.Join(["contig", "start", "end", "name", Text.Join(indivs, Tab)], Tab);
    assert (line + Newline)[..|line + Newline| - 1] == line;
    HeaderIsOneLine(indivs);
    line + Newline
  }

  lemma HeaderIsOneLine(indivs: seq<string>)
    ensures Text.FreeOf(indivs, '\n') ==>
              '\n' !in Text.Join(["contig", "start", "end", "name", Text.Join(indivs, Tab)], Tab)
  {
    if Text.FreeOf(indivs, '\n') {
      Text.JoinAvoids(indivs, Tab, '\n');
      Text.JoinAvoids(["contig", "start", "end", "name", Text.Join(indivs, Tab)], Tab, '\n');
    }
  }

  /** The tab-separated fields of a line without its final newline. */
  function Fields(line: string): seq<string>
  {
    if |line| > 0 && line[|line| - 1] == '\n' then Text.Split(line[..|line| - 1], Tab)
    else Text.Split(line, Tab)
  }

  lemma JoinFive(a: string, b: string, c: string, d: string, rest: seq<string>)
    requires |rest| >= 1
    ensures Text.Join([a, b, c, d, Text.Join(rest, Tab)], Tab) == Text.Join([a, b, c, d] + rest, Tab)
  {
    var head := [a, b, c, d];
    var j := Text.Join(rest, Tab);
    Text.JoinAppend(head, rest, Tab);
    assert [a, b, c, d, j] == head + [j];
    Text.JoinAppend(head, [j], Tab);
    assert Text.Join([j], Tab) == j;
  }

  /** A region row splits back into contig, start, end, name and one field
      per individual holding that individual's genotype, provided contig
      and name hold no tab (with no individuals the last field is empty). */
  lemma RegionRowReadsBack(contig: string, start: int, end: int, name: string,
                           indivs: seq<string>, gts: map<string, int>)
    requires RegionRow(contig, start, end, name, indivs, gts).Success?
    requires Tab !in contig && Tab !in name
    ensures var f := Fields(RegionRow(contig, start, end, name, indivs, gts).value);
            && |f| == 4 + (if |indivs| == 0 then 1 else |indivs|)
            && f[0] == contig && f[3] == name
            && Text.ParseInt(f[1]) == Some(start) && Text.ParseInt(f[2]) == Some(end)
            && forall i :: 0 <= i < |indivs| ==> Text.ParseInt(f[4 + i]) == Some(gts[indivs[i]])
  {
    var values := Lookup(indivs, gts).value;
    var strs := Strs(values);
    var head := [contig, Text.IntToString(start), Text.IntToString(end), name];
    var line := Text.Join(head + [Text.Join(strs, Tab)], Tab);
    assert head + [Text.Join(strs, Tab)] == [contig, Text.IntToString(start), Text.IntToString(end), name, Text.Join(strs, Tab)];
    assert RegionRow(contig, start, end, name, indivs, gts).value == line + Newline;
    assert (line + Newline)[..|line + Newline| - 1] == line;
    Text.IntToStringAvoids(start, Tab);
    Text.IntToStringAvoids(end, Tab);
    Text.IntToStringRoundTrip(start);
    Text.IntToStringRoundTrip(end);
    StrsFreeOf(values, Tab);
    if |indivs| == 0 {
      assert Text.Join(strs, Tab) == "";
      assert Text.FreeOf(head + [""], Tab);
      Text.SplitJoin(head + [""], Tab);
    } else {
      JoinFive(contig, Text.IntToString(start), Text.IntToString(end), name, strs);
      assert Text.FreeOf(head + strs, Tab) by {
        forall i | 0 <= i < |head + strs| ensures Tab !in (head + strs)[i] {
          if i >= 4 {
            assert (head + strs)[i] == strs[i - 4];
          }
        }
      }
      Text.SplitJoin(head + strs, Tab);
      forall i | 0 <= i < |indivs| ensures Text.ParseInt((head + strs)[4 + i]) == Some(gts[indivs[i]]) {
        assert (head + strs)[4 + i] == strs[i];
        Text.IntToStringRoundTrip(values[i]);
      }
    }
  }

  /** With at least one individual and tab-free names, the header has one
      field per column of a region row: the four region columns, then the
      individuals in the same order as the genotype fields. */
  lemma HeaderMatchesRows(indivs: seq<string>)
    requires |indivs| >= 1
    requires Text.FreeOf(indivs, Tab)
    ensures Fields(Header(indivs)) == ["contig", "start", "end", "name"] + indivs
  {
    var line := Text.Join(["contig", "start", "end", "name", Text.Join(indivs, Tab)], Tab);
    assert (line + Newline)[..|line + Newline| - 1] == line;
    JoinFive("contig", "start", "end", "name", indivs);
    var all := ["contig", "start", "end", "name"] + indivs;
    assert Text.FreeOf(all, Tab) by {
      forall i | 0 <= i < |all| ensures Tab !in all[i] {
        if i >= 4 {
          assert all[i] == indivs[i - 4];
        }
      }
    }
    Text.SplitJoin(all, Tab);
  }
}

=== FILE: merge_x.dfy ===
/** Reconciliation of the chrX calls made separately on the female and on
    the male cohort (`merge_X_tables`). The female table is primary: all
    its calls are kept. A male call is dropped when it is the best match,
    by fractional overlap above 0.95, of some female call. */
module MergeX {
  import opened Wrappers
  import Seqs
  import Overlap

  /** The interval of one table row; the merge reads no other column. */
  datatype Row = Row(start: int, end: int)

  /** A genotype table: its header (contig, start, end, then one column
      per individual) and its rows in file order. */
  datatype Table = Table(header: seq<string>, rows: seq<Row>)

  datatype Call = Call(contig: string, start: int, end: int)

  /** What `merge_X_tables` returns: the merged calls and the individual
      columns of both tables. */
  datatype Merged = Merged(calls: seq<Call>, indivs: seq<string>)

  /** The key of the side table that records absorbed male intervals. */
  type Key = (int, int)

  const Contig: string := "chrX"
  const Threshold: real := 0.95

  function KeyOf(r: Row): Key
  {
    (r.start, r.end)
  }

  function CallOf(r: Row): Call
  {
    Call(Contig, r.start, r.end)
  }

  /** Every row is a non-empty interval, so that overlaps are defined. */
  predicate WellFormed(rows: seq<Row>)
  {
    forall i :: 0 <= i < |rows| ==> rows[i].start < rows[i].end
  }

  /** The interval-index hit test: the row and [s, e) share a point. */
  predicate Meets(r: Row, s: int, e: int)
  {
    r.start < e && s < r.end
  }

  /** `IntervalTree.find(s, e)` over the secondary table: the rows that
      meet [s, e), in table order. */
  function Query(b: seq<Row>, s: int, e: int): (hits: seq<Row>)
    ensures WellFormed(b) ==> WellFormed(hits)
    ensures forall r :: r in hits <==> r in b && Meets(r, s, e)
  {
    var hits := Seqs.Filter(b, (r: Row) => Meets(r, s, e));
    forall i | 0 <= i < |hits| && WellFormed(b)
      ensures hits[i].start < hits[i].end
    {
      assert hits[i] in hits;
      var j :| 0 <= j < |b| && b[j] == hits[i];
    }
    hits
  }

  /** `np.argmax`: the first index holding the largest value. */
  function ArgMax(xs: seq<real>): (i: nat)
    requires |xs| > 0
    ensures i < |xs|
    ensures forall j :: 0 <= j < |xs| ==> xs[j] <= xs[i]
    ensures forall j :: 0 <= j < i ==> xs[j] < xs[i]
    decreases |xs|
  {
    if |xs| == 1 then 0
    else
      var i := ArgMax(xs[..|xs| - 1]);
      if xs[|xs| - 1] > xs[i] then |xs| - 1 else i
  }

  /** The overlap of the interval [s, e) with each hit, in order. */
  function Overlaps(s: int, e: int, hits: seq<Row>): (ov: seq<real>)
    requires s < e && WellFormed(hits)
    ensures |ov| == |hits|
    ensures forall i :: 0 <= i < |hits| ==>
              ov[i] == Overlap.Overlap(s, e, hits[i].start, hits[i].end)
    decreases |hits|
  {
    if |hits| == 0 then []
    else [Overlap.Overlap(s, e, hits[0].start, hits[0].end)] + Overlaps(s, e, hits[1..])
  }

  /** The male row a female row absorbs: the first best-overlapping hit,
      when that overlap exceeds the threshold. */
  function BestMatch(a: Row, b: seq<Row>): (m: Option<Row>)
    requires a.start < a.end && WellFormed(b)
    ensures m.Some? ==> m.value in b && Meets(m.value, a.start, a.end)
    ensures m.Some? ==> Overlap.Overlap(a.start, a.end, m.value.start, m.value.end) > Threshold
    ensures m.Some? ==> forall r :: r in b && Meets(r, a.start, a.end) ==>
              Overlap.Overlap(a.start, a.end, r.start, r.end)
                <= Overlap.Overlap(a.start, a.end, m.value.start, m.value.end)
    ensures m.None? ==> forall r :: r in b && Meets(r, a.start, a.end) ==>
              Overlap.Overlap(a.start, a.end, r.start, r.end) <= Threshold
  {
    var hits := Query(b, a.start, a.end);
    if |hits| == 0 then None
    else
      var ov := Overlaps(a.start, a.end, hits);
      var k := ArgMax(ov);
      MaxOverHits(a.start, a.end, hits, ov[k]);
      if ov[k] > Threshold then Some(hits[k]) else None
  }

  /** A bound on every overlap in the list bounds the overlap of every hit. */
  lemma MaxOverHits(s: int, e: int, hits: seq<Row>, top: real)
    requires s < e && WellFormed(hits)
    requires forall j :: 0 <= j < |hits| ==> Overlaps(s, e, hits)[j] <= top
    ensures forall r :: r in hits ==> Overlap.Overlap(s, e, r.start, r.end) <= top
  {
    forall r | r in hits ensures Overlap.Overlap(s, e, r.start, r.end) <= top {
      var j :| 0 <= j < |hits| && hits[j] == r;
      assert Overlaps(s, e, hits)[j] <= top;
    }
  }

  /** The key of the male row that female row `a` absorbs, if any. */
  function Target(a: Row, b: seq<Row>): Option<Key>
    requires a.start < a.end && WellFormed(b)
  {
    match BestMatch(a, b)
    case None => None
    case Some(h) => Some(KeyOf(h))
  }

  /** Female row `a` absorbs the male key `k`. */
  predicate Absorbs(a: Row, b: seq<Row>, k: Key)
    requires a.start < a.end && WellFormed(b)
  {
    Target(a, b) == Some(k)
  }

  /** The target of each female row, in order. */
  function Targets(a: seq<Row>, b: seq<Row>): (t: seq<Option<Key>>)
    requires WellFormed(a) && WellFormed(b)
    ensures |t| == |a|
    ensures forall i :: 0 <= i < |a| ==> t[i] == Target(a[i], b)
  {
    seq(|a|, i requires 0 <= i < |a| => Target(a[i], b))
  }

  /** The side table built from the targets `t[i]` of the rows with keys
      `keys[i]`, visited in order: a later row overwrites the entry of an
      earlier one. */
  function Record(t: seq<Option<Key>>, keys: seq<Key>): (m: map<Key, Key>)
    requires |t| == |keys|
    ensures forall k :: k in m ==> Some(k) in t && m[k] in keys
    decreases |t|
  {
    if |t| == 0 then map[]
    else
      var m := Record(t[..|t| - 1], keys[..|t| - 1]);
      match t[|t| - 1]
      case None => m
      case Some(k) => m[k := keys[|t| - 1]]
  }

  function Keys(rows: seq<Row>): (keys: seq<Key>)
    ensures |keys| == |rows|
    ensures forall i :: 0 <= i < |rows| ==> keys[i] == KeyOf(rows[i])
  {
    seq(|rows|, i requires 0 <= i < |rows| => KeyOf(rows[i]))
  }

  /** The side table `added_from_table_2`: male key -> female interval
      that absorbed it. */
  function Absorbed(a: seq<Row>, b: seq<Row>): (m: map<Key, Key>)
    requires WellFormed(a) && WellFormed(b)
    ensures forall k :: k in m ==> (exists i :: 0 <= i < |a| && Absorbs(a[i], b, k)) &&
                                   (exists i :: 0 <= i < |a| && m[k] == KeyOf(a[i]))
  {
    Record(Targets(a, b), Keys(a))
  }

  /** Row i targets k and no later row does. */
  predicate LastHit(t: seq<Option<Key>>, k: Key, i: int)
  {
    && 0 <= i < |t|
    && t[i] == Some(k)
    && forall j :: i < j < |t| ==> t[j] != Some(k)
  }

  /** A key is recorded exactly when some row targets it. */
  lemma {:induction false} RecordKeys(t: seq<Option<Key>>, keys: seq<Key>, k: Key)
    requires |t| == |keys|
    ensures k in Record(t, keys) <==> exists i :: 0 <= i < |t| && t[i] == Some(k)
    decreases |t|
  {
    if |t| > 0 {
      var n := |t| - 1;
      RecordKeys(t[..n], keys[..n], k);
      if exists i :: 0 <= i < |t| && t[i] == Some(k) {
        var i :| 0 <= i < |t| && t[i] == Some(k);
        if i < n {
          assert t[..n][i] == t[i];
        }
      }
      if k in Record(t, keys) && t[n] != Some(k) {
        var i :| 0 <= i < n && t[..n][i] == Some(k);
      }
    }
  }

  /** The value recorded for a key is the key of the last row targeting
      it. */
  lemma {:induction false} RecordValue(t: seq<Option<Key>>, keys: seq<Key>, k: Key)
    requires |t| == |keys| && k in Record(t, keys)
    ensures exists i :: LastHit(t, k, i) && Record(t, keys)[k] == keys[i]
    decreases |t|
  {
    var n := |t| - 1;
    if t[n] == Some(k) {
      assert LastHit(t, k, n);
    } else {
      RecordStep(t, keys, k);
      RecordValue(t[..n], keys[..n], k);
      var i :| LastHit(t[..n], k, i) && Record(t[..n], keys[..n])[k] == keys[..n][i];
      LastHitExtend(t, k, i);
      assert keys[..n][i] == keys[i];
    }
  }

  /** A last row that does not target k leaves k's entry as it was. */
  lemma RecordStep(t: seq<Option<Key>>, keys: seq<Key>, k: Key)
    requires |t| == |keys| && |t| > 0 && t[|t| - 1] != Some(k)
    ensures k in Record(t, keys) <==> k in Record(t[..|t| - 1], keys[..|t| - 1])
    ensures k in Record(t, keys) ==> Record(t, keys)[k] == Record(t[..|t| - 1], keys[..|t| - 1])[k]
  {
  }

  /** The last hit among all but the final row stays the last hit when the
      final row does not target k. */
  lemma LastHitExtend(t: seq<Option<Key>>, k: Key, i: int)
    requires |t| > 0 && t[|t| - 1] != Some(k)
    requires LastHit(t[..|t| - 1], k, i)
    ensures LastHit(t, k, i)
  {
    var n := |t| - 1;
    forall j | i < j < |t| ensures t[j] != Some(k) {
      if j < n {
        assert t[j] == t[..n][j];
      }
    }
  }

  /** With no row targeting anything the table is empty. */
  lemma {:induction false} RecordNone(t: seq<Option<Key>>, keys: seq<Key>)
    requires |t| == |keys|
    requires forall i :: 0 <= i < |t| ==> t[i].None?
    ensures Record(t, keys) == map[]
    decreases |t|
  {
    if |t| > 0 {
      var n := |t| - 1;
      RecordNone(t[..n], keys[..n]);
    }
  }

  /** A male key is absorbed exactly when some female row absorbs it. */
  lemma AbsorbedKeys(a: seq<Row>, b: seq<Row>, k: Key)
    requires WellFormed(a) && WellFormed(b)
    ensures k in Absorbed(a, b) <==> exists i :: 0 <= i < |a| && Absorbs(a[i], b, k)
  {
    var t := Targets(a, b);
    RecordKeys(t, Keys(a), k);
    if exists i :: 0 <= i < |a| && Absorbs(a[i], b, k) {
      var i :| 0 <= i < |a| && Absorbs(a[i], b, k);
      assert t[i] == Some(k);
    }
  }

  /** Female row i absorbs key k and no later female row does. */
  predicate LastAbsorber(a: seq<Row>, b: seq<Row>, k: Key, i: int)
    requires WellFormed(a) && WellFormed(b)
  {
    LastHit(Targets(a, b), k, i)
  }

  /** The female interval recorded for an absorbed key is that of the
      last female row absorbing it. */
  lemma AbsorbedValue(a: seq<Row>, b: seq<Row>, k: Key)
    requires WellFormed(a) && WellFormed(b)
    requires k in Absorbed(a, b)
    ensures exists i :: LastAbsorber(a, b, k, i) && Absorbs(a[i], b, k) && Absorbed(a, b)[k] == KeyOf(a[i])
  {
    var t := Targets(a, b);
    var keys := Keys(a);
    assert Absorbed(a, b) == Record(t, keys);
    RecordValue(t, keys, k);
    var i :| LastHit(t, k, i) && Record(t, keys)[k] == keys[i];
    assert LastAbsorber(a, b, k, i);
    assert Absorbs(a[i], b, k);
  }

  /** The individual columns of a header: everything after contig, start
      and end (`columns[3:]`, empty for a shorter header). */
  function Individuals(header: seq<string>): (ids: seq<string>)
    ensures |ids| == if |header| >= 3 then |header| - 3 else 0
    ensures forall i :: 0 <= i < |ids| ==> ids[i] == header[i + 3]
  {
    if |header| >= 3 then header[3..] else []
  }

  /** Each row as a chrX call. */
  function Calls(rows: seq<Row>): (calls: seq<Call>)
    ensures |calls| == |rows|
    ensures forall i :: 0 <= i < |rows| ==> calls[i] == CallOf(rows[i])
  {
    seq(|rows|, i requires 0 <= i < |rows| => CallOf(rows[i]))
  }

  /** Turning rows into calls keeps a subsequence a subsequence. */
  lemma {:induction false} CallsKeepOrder(xs: seq<Row>, ys: seq<Row>)
    requires Seqs.IsSubsequence(xs, ys)
    ensures Seqs.IsSubsequence(Calls(xs), Calls(ys))
    decreases |ys|
  {
    if |xs| > 0 {
      assert Calls(ys)[1..] == Calls(ys[1..]);
      assert Calls(xs)[1..] == Calls(xs[1..]);
      if xs[0] == ys[0] && Seqs.IsSubsequence(xs[1..], ys[1..]) {
        CallsKeepOrder(xs[1..], ys[1..]);
      } else {
        CallsKeepOrder(xs, ys[1..]);
      }
    }
  }

  /** Whether a male row survives the merge. */
  function Unabsorbed(absorbed: map<Key, Key>): Row -> bool
  {
    (r: Row) => KeyOf(r) !in absorbed
  }

  /** The male rows that survive, in table order. */
  function Kept(male: Table, female: Table): seq<Row>
    requires WellFormed(male.rows) && WellFormed(female.rows)
  {
    Seqs.Filter(male.rows, Unabsorbed(Absorbed(female.rows, male.rows)))
  }

  /** `merge_X_tables(X_M, X_F)`: the female table is the primary one. */
  function MergeXTables(male: Table, female: Table): (r: Merged)
    requires WellFormed(male.rows) && WellFormed(female.rows)
    ensures |r.calls| == |female.rows| + Seqs.CountIf(male.rows, Unabsorbed(Absorbed(female.rows, male.rows)))
    ensures forall i :: 0 <= i < |female.rows| ==> r.calls[i] == CallOf(female.rows[i])
    ensures forall i :: 0 <= i < |r.calls| ==> r.calls[i].contig == Contig
    ensures |Individuals(female.header)| <= |r.indivs|
    ensures r.indivs[..|Individuals(female.header)|] == Individuals(female.header)
    ensures r.indivs[|Individuals(female.header)|..] == Individuals(male.header)
  {
    var kept := Kept(male, female);
    Seqs.FilterLength(male.rows, Unabsorbed(Absorbed(female.rows, male.rows)));
    var calls := Calls(female.rows) + Calls(kept);
    var primary := Individuals(female.header);
    var secondary := Individuals(male.header);
    ConcatSplits(primary, secondary);
    Merged(calls, primary + secondary)
  }

  lemma ConcatSplits<T>(xs: seq<T>, ys: seq<T>)
    ensures (xs + ys)[..|xs|] == xs && (xs + ys)[|xs|..] == ys
  {
  }

  /** After the female calls come exactly the male rows whose key was not
      absorbed, in male-table order. */
  lemma SecondaryCalls(male: Table, female: Table)
    requires WellFormed(male.rows) && WellFormed(female.rows)
    ensures var r := MergeXTables(male, female);
            var absorbed := Absorbed(female.rows, male.rows);
            && (forall c :: c in r.calls[|female.rows|..] <==>
                  exists m :: m in male.rows && KeyOf(m) !in absorbed && c == CallOf(m))
            && Seqs.IsSubsequence(r.calls[|female.rows|..], Calls(male.rows))
  {
    var r := MergeXTables(male, female);
    var absorbed := Absorbed(female.rows, male.rows);
    var kept := Kept(male, female);
    assert r.calls[|female.rows|..] == Calls(kept);
    Seqs.FilterIsSubsequence(male.rows, Unabsorbed(absorbed));
    CallsKeepOrder(kept, male.rows);
    KeptCalls(male.rows, absorbed);
  }

  /** The calls of the unabsorbed rows are those of the rows whose key is
      not in the side table. */
  lemma KeptCalls(rows: seq<Row>, absorbed: map<Key, Key>)
    ensures forall c :: c in Calls(Seqs.Filter(rows, Unabsorbed(absorbed))) <==>
              exists m :: m in rows && KeyOf(m) !in absorbed && c == CallOf(m)
  {
    var kept := Seqs.Filter(rows, Unabsorbed(absorbed));
    forall c | c in Calls(kept)
      ensures exists m :: m in rows && KeyOf(m) !in absorbed && c == CallOf(m)
    {
      var i :| 0 <= i < |kept| && Calls(kept)[i] == c;
      assert kept[i] in kept;
    }
    forall m | m in rows && KeyOf(m) !in absorbed
      ensures CallOf(m) in Calls(kept)
    {
      var i :| 0 <= i < |rows| && rows[i] == m;
      assert Unabsorbed(absorbed)(rows[i]);
      assert m in kept;
      var j :| 0 <= j < |kept| && kept[j] == m;
      assert Calls(kept)[j] == CallOf(m);
    }
  }

  /** Absorption rule: a male row's call is emitted exactly when no female
      row absorbs its (start, end) key. */
  lemma AbsorptionRule(male: Table, female: Table, m: Row)
    requires WellFormed(male.rows) && WellFormed(female.rows)
    requires m in male.rows
    ensures CallOf(m) in MergeXTables(male, female).calls[|female.rows|..] <==>
            !exists i :: 0 <= i < |female.rows| && Absorbs(female.rows[i], male.rows, KeyOf(m))
  {
    SecondaryCalls(male, female);
    AbsorbedKeys(female.rows, male.rows, KeyOf(m));
  }

  /** An absorbed male key is a male interval that some female interval
      overlaps by more than 0.95: their common part is longer than 95% of
      each of the two intervals. */
  lemma AbsorbedHighOverlap(male: Table, female: Table, k: Key)
    requires WellFormed(male.rows) && WellFormed(female.rows)
    requires k in Absorbed(female.rows, male.rows)
    ensures exists a, m :: a in female.rows && m in male.rows && KeyOf(m) == k && HighOverlap(a, m)
  {
    AbsorbedKeys(female.rows, male.rows, k);
    var i :| 0 <= i < |female.rows| && Absorbs(female.rows[i], male.rows, k);
    var a := female.rows[i];
    var hit := BestMatch(a, male.rows);
    assert hit.Some?;
    var m := hit.value;
    assert m in male.rows && KeyOf(m) == k;
    HighOverlapOf(a, m);
  }

  lemma HighOverlapOf(a: Row, m: Row)
    requires a.start < a.end && m.start < m.end
    requires Overlap.Overlap(a.start, a.end, m.start, m.end) > Threshold
    ensures HighOverlap(a, m)
  {
    Overlap.ExceedsIff(a.start, a.end, m.start, m.end, Threshold);
  }

  /** The two intervals overlap by more than the threshold, and so share
      more than that fraction of each one's length. */
  predicate HighOverlap(a: Row, m: Row)
    requires a.start < a.end && m.start < m.end
  {
    var shared := Overlap.Shared(a.start, a.end, m.start, m.end) as real;
    && Overlap.Overlap(a.start, a.end, m.start, m.end) > Threshold
    && shared > Threshold * (a.end - a.start) as real
    && shared > Threshold * (m.end - m.start) as real
  }

  /** When no female row meets any male row, nothing is absorbed. */
  lemma NoHitsNoAbsorption(a: seq<Row>, b: seq<Row>)
    requires WellFormed(a) && WellFormed(b)
    requires forall i, j :: 0 <= i < |a| && 0 <= j < |b| ==> !Meets(b[j], a[i].start, a[i].end)
    ensures Absorbed(a, b) == map[]
  {
    var t := Targets(a, b);
    forall i | 0 <= i < |a| ensures t[i].None? {
      var r := a[i];
      Seqs.FilterNone(b, (x: Row) => Meets(x, r.start, r.end));
    }
    RecordNone(t, Keys(a));
  }

  /** Male calls that meet no female call are all kept: the merge is the
      female calls followed by every male call in order. */
  lemma NoHitsKeepsAll(male: Table, female: Table)
    requires WellFormed(male.rows) && WellFormed(female.rows)
    requires forall i, j :: 0 <= i < |female.rows| && 0 <= j < |male.rows| ==>
               !Meets(male.rows[j], female.rows[i].start, female.rows[i].end)
    ensures MergeXTables(male, female).calls == Calls(female.rows) + Calls(male.rows)
  {
    NoHitsNoAbsorption(female.rows, male.rows);
    Seqs.FilterAll(male.rows, Unabsorbed(map[]));
  }

  /** The side table of a single female row. */
  lemma AbsorbedSingle(a: Row, b: seq<Row>)
    requires a.start < a.end && WellFormed(b)
    ensures Absorbed([a], b) == Record([Target(a, b)], [KeyOf(a)])
  {
    assert Targets([a], b) == [Target(a, b)];
    assert Keys([a]) == [KeyOf(a)];
  }

  lemma RecordSingle(t: Option<Key>, key: Key)
    ensures t.None? ==> Record([t], [key]) == map[]
    ensures t.Some? ==> Record([t], [key]) == map[t.value := key]
  {
    assert [t][..0] == [];
    assert [key][..0] == [];
  }

  /** [10, 19) is not the match of [10, 20): their overlap is only 0.9. */
  lemma NearMissNotAbsorbed()
    ensures Absorbed([Row(10, 20)], [Row(10, 19)]) == map[]
  {
    var b := [Row(10, 19)];
    assert Query(b, 10, 20) == b;
    assert Overlap.Overlap(10, 20, 10, 19) == 0.9;
    assert Overlaps(10, 20, b) == [0.9];
    assert BestMatch(Row(10, 20), b) == None;
    AbsorbedSingle(Row(10, 20), b);
    RecordSingle(None, (10, 20));
  }

  /** A male call close to, but under 0.95 of, a female call survives:
      [10, 20) and [10, 19) overlap by 0.9. */
  lemma NearMissSurvives()
    ensures MergeXTables(Table([], [Row(10, 19)]), Table([], [Row(10, 20)])).calls
         == [Call(Contig, 10, 20), Call(Contig, 10, 19)]
  {
    var b := [Row(10, 19)];
    NearMissNotAbsorbed();
    Seqs.FilterAll(b, Unabsorbed(map[]));
  }

  /** A male call covering 99% of a female call is absorbed. */
  lemma CloseMatchAbsorbed()
    ensures MergeXTables(Table([], [Row(0, 99)]), Table([], [Row(0, 100)])).calls
         == [Call(Contig, 0, 100)]
  {
    var b := [Row(0, 99)];
    assert Query(b, 0, 100) == b;
    assert Overlap.Overlap(0, 100, 0, 99) == 0.99;
    assert Overlaps(0, 100, b) == [0.99];
    assert BestMatch(Row(0, 100), b) == Some(Row(0, 99));
    AbsorbedSingle(Row(0, 100), b);
    RecordSingle(Some((0, 99)), (0, 100));
    assert Seqs.Filter(b, Unabsorbed(map[(0, 99) := (0, 100)])) == [];
  }

  /** The first of two male calls overlapping [0, 100) is its best match. */
  lemma RunnerUpBestMatch()
    ensures BestMatch(Row(0, 100), [Row(0, 100), Row(1, 100)]) == Some(Row(0, 100))
  {
    var b := [Row(0, 100), Row(1, 100)];
    assert Query(b, 0, 100) == b by {
      assert Seqs.Filter(b[1..], (r: Row) => Meets(r, 0, 100)) == b[1..];
    }
    assert Overlap.Overlap(0, 100, 0, 100) == 1.0;
    assert Overlap.Overlap(0, 100, 1, 100) == 0.99;
    var ov := Overlaps(0, 100, b);
    assert ov == [1.0, 0.99];
    assert ArgMax(ov) == 0 by {
      assert ov[..1] == [1.0];
    }
  }

  /** A single female row that targets k absorbs k and nothing else. */
  lemma AbsorbedOne(a: Row, b: seq<Row>, k: Key)
    requires a.start < a.end && WellFormed(b)
    requires Target(a, b) == Some(k)
    ensures Absorbed([a], b) == map[k := KeyOf(a)]
  {
    AbsorbedSingle(a, b);
    RecordSingle(Some(k), KeyOf(a));
  }

  /** Only the best match is absorbed: a second male call overlapping the
      same female call by 0.99 is kept next to it. */
  lemma RunnerUpSurvives(male: Table, female: Table)
    requires male.rows == [Row(0, 100), Row(1, 100)] && female.rows == [Row(0, 100)]
    ensures Absorbed(female.rows, male.rows) == map[(0, 100) := (0, 100)]
    ensures Kept(male, female) == [Row(1, 100)]
  {
    RunnerUpAbsorbed(female.rows, male.rows);
    RunnerUpKept();
  }

  lemma RunnerUpAbsorbed(a: seq<Row>, b: seq<Row>)
    requires b == [Row(0, 100), Row(1, 100)] && a == [Row(0, 100)]
    ensures Absorbed(a, b) == map[(0, 100) := (0, 100)]
  {
    var r := a[0];
    RunnerUpBestMatch();
    assert Target(r, b) == Some((0, 100));
    assert a == [r];
    AbsorbedOne(r, b, (0, 100));
  }

  lemma RunnerUpKept()
    ensures Seqs.Filter([Row(0, 100), Row(1, 100)], Unabsorbed(map[(0, 100) := (0, 100)])) == [Row(1, 100)]
  {
    var b := [Row(0, 100), Row(1, 100)];
    var keep := Unabsorbed(map[(0, 100) := (0, 100)]);
    assert !keep(b[0]) && keep(b[1]);
    assert b[1..][1..] == [];
    assert Seqs.Filter(b[1..], keep) == [Row(1, 100)];
  }
}

=== FILE: overlap.dfy ===
/** The fractional overlap of two intervals (`overlap` in
    combine_genotypes.py): the length they share, as a fraction of each
    interval's own length, taking the smaller fraction and capping it at 1.
    The source computes in floating point; the model uses exact rationals.
    Nothing clamps the value from below, so intervals that do not meet get
    a negative overlap equal to minus their gap over the shorter length. */
module Overlap {
  import Seqs

  function RMin(a: real, b: real): real
  {
    if a <= b then a else b
  }

  /** Signed length of the common part of [s1, e1) and [s2, e2): negative
      by the size of the gap when they are apart. */
  function Shared(s1: int, e1: int, s2: int, e2: int): int
  {
    Seqs.Min(e1, e2) - Seqs.Max(s1, s2)
  }

  /** `overlap(s1, e1, s2, e2)`. The source divides by both lengths, so
      neither interval may be empty. */
  function Overlap(s1: int, e1: int, s2: int, e2: int): (r: real)
    requires e1 != s1 && e2 != s2
    ensures r <= 1.0
    ensures s1 == s2 && e1 == e2 ==> r == 1.0
    ensures s1 < e1 && s2 < e2 && (e1 <= s2 || e2 <= s1) ==> r <= 0.0
    ensures s1 < e1 && s2 < e2 && s1 < e2 && s2 < e1 ==> r > 0.0
  {
    var l1 := e1 - s1;
    var l2 := e2 - s2;
    var o := Shared(s1, e1, s2, e2) as real;
    RMin(1.0, RMin(o / l1 as real, o / l2 as real))
  }

  /** The overlap does not depend on which interval comes first. */
  lemma Symmetric(s1: int, e1: int, s2: int, e2: int)
    requires e1 != s1 && e2 != s2
    ensures Overlap(s1, e1, s2, e2) == Overlap(s2, e2, s1, e1)
  {
  }

  /** For intervals that meet, the overlap is the shared length over the
      longer of the two lengths. */
  lemma ShareOfLonger(s1: int, e1: int, s2: int, e2: int)
    requires s1 < e1 && s2 < e2
    requires Shared(s1, e1, s2, e2) >= 0
    ensures Overlap(s1, e1, s2, e2)
         == Shared(s1, e1, s2, e2) as real / Seqs.Max(e1 - s1, e2 - s2) as real
  {
    var o := Shared(s1, e1, s2, e2) as real;
    var l1 := (e1 - s1) as real;
    var l2 := (e2 - s2) as real;
    assert o <= l1 && o <= l2;
    assert Overlap(s1, e1, s2, e2) == RMin(1.0, RMin(o / l1, o / l2));
    if l1 <= l2 {
      assert o / l2 <= o / l1 by { DivideMonotone(o, l1, l2); }
      assert o / l2 <= 1.0 by { FractionAtMostOne(o, l2); }
      assert Seqs.Max(e1 - s1, e2 - s2) as real == l2;
    } else {
      assert o / l1 <= o / l2 by { DivideMonotone(o, l2, l1); }
      assert o / l1 <= 1.0 by { FractionAtMostOne(o, l1); }
      assert Seqs.Max(e1 - s1, e2 - s2) as real == l1;
    }
  }

  lemma FractionAtMostOne(o: real, l: real)
    requires o <= l && 0.0 < l
    ensures o / l <= 1.0
  {
    var x := o / l;
    assert x * l == o;
  }

  lemma DivideMonotone(o: real, a: real, b: real)
    requires o >= 0.0 && 0.0 < a <= b
    ensures o / b <= o / a
  {
    var x := o / b;
    assert x * b == o;
    assert x >= 0.0;
    assert x * a <= x * b;
    assert x * a <= o;
    FractionAbove(o, a, x);
  }

  /** The overlap exceeds a threshold below 1 exactly when the shared
      length exceeds that fraction of each interval's length. */
  lemma ExceedsIff(s1: int, e1: int, s2: int, e2: int, t: real)
    requires s1 < e1 && s2 < e2
    requires t < 1.0
    ensures Overlap(s1, e1, s2, e2) > t <==>
            (Shared(s1, e1, s2, e2) as real > t * (e1 - s1) as real
             && Shared(s1, e1, s2, e2) as real > t * (e2 - s2) as real)
  {
    var o := Shared(s1, e1, s2, e2) as real;
    var l1 := (e1 - s1) as real;
    var l2 := (e2 - s2) as real;
    assert Overlap(s1, e1, s2, e2) > t <==> o / l1 > t && o / l2 > t;
    FractionAbove(o, l1, t);
    FractionAbove(o, l2, t);
  }

  lemma FractionAbove(o: real, l: real, t: real)
    requires l > 0.0
    ensures o / l > t <==> o > t * l
  {
    assert o / l * l == o;
    if o / l > t {
      assert o / l * l > t * l;
    } else {
      assert o / l * l <= t * l;
    }
  }

  /** An interval lying inside another overlaps it by the ratio of the
      inner length to the outer length. */
  lemma Nested(s1: int, e1: int, s2: int, e2: int)
    requires s1 <= s2 < e2 <= e1
    ensures Overlap(s1, e1, s2, e2) == (e2 - s2) as real / (e1 - s1) as real
  {
    ShareOfLonger(s1, e1, s2, e2);
  }

  /** Some values: half of each interval shared; two intervals apart by a
      gap as long as each; two intervals that only touch; a gap of 4 after
      an interval of length 1, divided by that shorter length; identical
      intervals; an interval one shorter than the other at the same start. */
  lemma Examples()
    ensures Overlap(0, 10, 5, 15) == 0.5
    ensures Overlap(0, 10, 20, 30) == -1.0
    ensures Overlap(0, 10, 10, 20) == 0.0
    ensures Overlap(0, 1, 5, 105) == -4.0
    ensures Overlap(0, 10, 0, 10) == 1.0
    ensures Overlap(10, 20, 10, 19) == 0.9
  {
  }
}

=== FILE: region_partition.dfy ===
/** The split of a contig's N regions into K contiguous, nearly equal work
    subsets, one per batch job (`get_regions_per_subset`). Subsets are
    numbered from 1; region indices are 0-based and ranges inclusive. */
module RegionPartition {
  import Seqs

  /** Inclusive index range `first..last`; `last == first - 1` is empty. */
  datatype Range = Range(first: int, last: int)
  {
    function Size(): int
    {
      last - first + 1
    }

    predicate Contains(i: int)
    {
      first <= i <= last
    }
  }

  /** The regions of subset `subset` out of `totalSubsets`. The source
      divides with Python 2 integer division, which on these non-negative
      operands is Dafny's `/`. It does not check the subset number; the
      precondition states the range its callers must respect. */
  function RegionsPerSubset(regions: nat, subset: int, totalSubsets: int): (r: Range)
    requires totalSubsets >= 1 && 1 <= subset <= totalSubsets
    ensures r.Size() == regions / totalSubsets || r.Size() == regions / totalSubsets + 1
    ensures r.Size() == regions / totalSubsets + 1 <==> subset <= regions % totalSubsets
    ensures subset == 1 ==> r.first == 0
    ensures subset == totalSubsets ==> r.last == regions - 1
    ensures 0 <= r.first && r.last < regions
    ensures r.first <= r.last + 1
  {
    var subsetSize := regions / totalSubsets;
    var remaining := regions - subsetSize * totalSubsets;
    var first := subsetSize * (subset - 1) + Seqs.Min(remaining, subset - 1);
    var size := if subset <= remaining then subsetSize + 1 else subsetSize;
    BoundsLemma(regions, subset, totalSubsets, subsetSize, remaining, first, size);
    Range(first, first + size - 1)
  }

  /** The arithmetic behind the bounds of `RegionsPerSubset`. */
  lemma BoundsLemma(n: nat, k: int, total: int, q: int, rem: int, first: int, size: int)
    requires total >= 1 && 1 <= k <= total
    requires q == n / total && rem == n - q * total
    requires first == q * (k - 1) + Seqs.Min(rem, k - 1)
    requires size == if k <= rem then q + 1 else q
    ensures rem == n % total && 0 <= rem < total
    ensures 0 <= first && (k == 1 ==> first == 0)
    ensures size == q || size == q + 1
    ensures k == total ==> first + size - 1 == n - 1
    ensures first + size - 1 < n
  {
    DivMod(n, total);
    Distribute(q, k, total);
  }

  lemma DivMod(n: nat, d: int)
    requires d >= 1
    ensures n == d * (n / d) + n % d && 0 <= n % d < d && n / d >= 0
  {
  }

  /** The products the bounds need: q*(k-1) + q == q*k, both non-negative,
      and q*k <= q*total. */
  lemma Distribute(q: int, k: int, total: int)
    requires q >= 0 && 1 <= k <= total
    ensures 0 <= q * (k - 1) && q * (k - 1) + q == q * k && q * k <= q * total
  {
    assert q * k == q * (k - 1) + q * 1;
    assert q * total == q * k + q * (total - k);
    MulNonNegative(q, k - 1);
    MulNonNegative(q, total - k);
  }

  lemma MulNonNegative(a: int, b: int)
    requires 0 <= a && 0 <= b
    ensures 0 <= a * b
  {
  }

  /** Subset k+1 starts right after subset k ends. */
  lemma Contiguous(regions: nat, k: int, totalSubsets: int)
    requires totalSubsets >= 1 && 1 <= k < totalSubsets
    ensures RegionsPerSubset(regions, k + 1, totalSubsets).first
         == RegionsPerSubset(regions, k, totalSubsets).last + 1
  {
    var q := regions / totalSubsets;
    assert q * k == q * (k - 1) + q;
  }

  /** Every earlier subset ends before every later subset begins. */
  lemma {:induction false} Ordered(regions: nat, k1: int, k2: int, totalSubsets: int)
    requires totalSubsets >= 1 && 1 <= k1 < k2 <= totalSubsets
    ensures RegionsPerSubset(regions, k1, totalSubsets).last
          < RegionsPerSubset(regions, k2, totalSubsets).first
    decreases k2 - k1
  {
    Contiguous(regions, k1, totalSubsets);
    if k1 + 1 < k2 {
      Ordered(regions, k1 + 1, k2, totalSubsets);
    }
  }

  /** Every region index up to the end of subset k lies in one of the
      subsets 1..k. */
  lemma {:induction false} CoveredUpTo(regions: nat, k: int, totalSubsets: int, i: int)
    requires totalSubsets >= 1 && 1 <= k <= totalSubsets
    requires 0 <= i <= RegionsPerSubset(regions, k, totalSubsets).last
    ensures exists j :: 1 <= j <= k && RegionsPerSubset(regions, j, totalSubsets).Contains(i)
    decreases k
  {
    if i < RegionsPerSubset(regions, k, totalSubsets).first {
      assert k > 1;
      Contiguous(regions, k - 1, totalSubsets);
      CoveredUpTo(regions, k - 1, totalSubsets, i);
      var j :| 1 <= j <= k - 1 && RegionsPerSubset(regions, j, totalSubsets).Contains(i);
    } else {
      assert RegionsPerSubset(regions, k, totalSubsets).Contains(i);
    }
  }

  /** The K subsets tile 0..N-1: each region index lies in exactly one
      subset, and no subset holds an index outside 0..N-1. */
  lemma Tiling(regions: nat, totalSubsets: int, i: int)
    requires totalSubsets >= 1
    ensures 0 <= i < regions <==>
            exists k :: 1 <= k <= totalSubsets && RegionsPerSubset(regions, k, totalSubsets).Contains(i)
    ensures forall k1, k2 ::
              1 <= k1 <= totalSubsets && 1 <= k2 <= totalSubsets
              && RegionsPerSubset(regions, k1, totalSubsets).Contains(i)
              && RegionsPerSubset(regions, k2, totalSubsets).Contains(i)
              ==> k1 == k2
  {
    if 0 <= i < regions {
      CoveredUpTo(regions, totalSubsets, totalSubsets, i);
    }
    forall k1, k2 | 1 <= k1 <= totalSubsets && 1 <= k2 <= totalSubsets
              && RegionsPerSubset(regions, k1, totalSubsets).Contains(i)
              && RegionsPerSubset(regions, k2, totalSubsets).Contains(i)
      ensures k1 == k2
    {
      if k1 < k2 {
        Ordered(regions, k1, k2, totalSubsets);
      } else if k2 < k1 {
        Ordered(regions, k2, k1, totalSubsets);
      }
    }
  }

  /** Fewer regions than subsets: the first N subsets hold one region each
      and the remaining ones are empty. */
  lemma FewRegions(regions: nat, k: int, totalSubsets: int)
    requires totalSubsets >= 1 && 1 <= k <= totalSubsets
    requires regions < totalSubsets
    ensures RegionsPerSubset(regions, k, totalSubsets).Size() == if k <= regions then 1 else 0
  {
    DivMod(regions, totalSubsets);
    assert regions / totalSubsets == 0;
  }

  /** For example, 10 regions in 3 subsets are 0..3, 4..6 and 7..9. */
  lemma TenInThree()
    ensures RegionsPerSubset(10, 1, 3) == Range(0, 3)
    ensures RegionsPerSubset(10, 2, 3) == Range(4, 6)
    ensures RegionsPerSubset(10, 3, 3) == Range(7, 9)
  {
  }
}

=== FILE: seqs.dfy ===
/** Order-keeping selection from a sequence: the list comprehensions and
    boolean-mask indexing the scripts use to drop rows and columns; and
    Python's `min` and `max` on two integers. */
module Seqs {

  /** Python's `min(a, b)` on integers. */
  function Min(a: int, b: int): int
  {
    if a <= b then a else b
  }

  /** Python's `max(a, b)` on integers. */
  function Max(a: int, b: int): int
  {
    if a >= b then a else b
  }

  /** `xs` can be obtained from `ys` by deleting elements. */
  predicate IsSubsequence<T(==)>(xs: seq<T>, ys: seq<T>)
    decreases |ys|
  {
    if |xs| == 0 then true
    else if |ys| == 0 then false
    else (xs[0] == ys[0] && IsSubsequence(xs[1..], ys[1..])) || IsSubsequence(xs, ys[1..])
  }

  /** The elements of `s` that satisfy `keep`, in their original order. */
  function Filter<T>(s: seq<T>, keep: T -> bool): (r: seq<T>)
    ensures |r| <= |s|
    ensures forall x :: x in r ==> x in s && keep(x)
    ensures forall i :: 0 <= i < |s| && keep(s[i]) ==> s[i] in r
    decreases |s|
  {
    if |s| == 0 then []
    else if keep(s[0]) then [s[0]] + Filter(s[1..], keep)
    else Filter(s[1..], keep)
  }

  /** What is selected is a subsequence of the input. */
  lemma {:induction false} FilterIsSubsequence<T>(s: seq<T>, keep: T -> bool)
    ensures IsSubsequence(Filter(s, keep), s)
    decreases |s|
  {
    if |s| > 0 {
      FilterIsSubsequence(s[1..], keep);
      var rest := Filter(s[1..], keep);
      if keep(s[0]) {
        assert Filter(s, keep) == [s[0]] + rest;
        assert ([s[0]] + rest)[1..] == rest;
      } else if |rest| > 0 {
        assert Filter(s, keep) == rest;
      }
    }
  }

  /** Each kept value occurs as often as in the input; each dropped value
      not at all. */
  lemma {:induction false} FilterCounts<T>(s: seq<T>, keep: T -> bool, x: T)
    ensures multiset(Filter(s, keep))[x] == if keep(x) then multiset(s)[x] else 0
    decreases |s|
  {
    if |s| > 0 {
      FilterCounts(s[1..], keep, x);
      assert s == [s[0]] + s[1..];
      assert multiset(s) == multiset{s[0]} + multiset(s[1..]);
      if keep(s[0]) {
        assert multiset(Filter(s, keep)) == multiset{s[0]} + multiset(Filter(s[1..], keep));
      }
    }
  }

  /** Selection distributes over concatenation. */
  lemma {:induction false} FilterAppend<T>(s: seq<T>, t: seq<T>, keep: T -> bool)
    ensures Filter(s + t, keep) == Filter(s, keep) + Filter(t, keep)
    decreases |s|
  {
    if |s| > 0 {
      assert (s + t)[0] == s[0];
      assert (s + t)[1..] == s[1..] + t;
      FilterAppend(s[1..], t, keep);
    } else {
      assert s + t == t;
    }
  }

  /** A predicate that keeps everything leaves the input unchanged. */
  lemma {:induction false} FilterAll<T>(s: seq<T>, keep: T -> bool)
    requires forall i :: 0 <= i < |s| ==> keep(s[i])
    ensures Filter(s, keep) == s
    decreases |s|
  {
    if |s| > 0 {
      FilterAll(s[1..], keep);
      assert s == [s[0]] + s[1..];
    }
  }

  /** A predicate that keeps nothing selects nothing. */
  lemma {:induction false} FilterNone<T>(s: seq<T>, keep: T -> bool)
    requires forall i :: 0 <= i < |s| ==> !keep(s[i])
    ensures Filter(s, keep) == []
    decreases |s|
  {
    if |s| > 0 {
      FilterNone(s[1..], keep);
    }
  }

  /** The number of elements satisfying `keep`. */
  function CountIf<T>(s: seq<T>, keep: T -> bool): (n: nat)
    ensures n <= |s|
    ensures n == 0 <==> forall i :: 0 <= i < |s| ==> !keep(s[i])
    decreases |s|
  {
    if |s| == 0 then 0
    else (if keep(s[0]) then 1 else 0) + CountIf(s[1..], keep)
  }

  lemma {:induction false} FilterLength<T>(s: seq<T>, keep: T -> bool)
    ensures |Filter(s, keep)| == CountIf(s, keep)
    decreases |s|
  {
    if |s| > 0 {
      FilterLength(s[1..], keep);
    }
  }
}

=== FILE: string_order.dfy ===
/** Python's ordering of `str` values (code point by code point, a proper
    prefix first) and the `sorted()` of a list of strings under it. */
module StringOrder {

  /** `a <= b` between two Python strings. */
  predicate Below(a: string, b: string)
    decreases |a|
  {
    |a| == 0 || (|b| > 0 && (a[0] < b[0] || (a[0] == b[0] && Below(a[1..], b[1..]))))
  }

  lemma {:induction false} BelowReflexive(a: string)
    ensures Below(a, a)
    decreases |a|
  {
    if |a| > 0 {
      BelowReflexive(a[1..]);
    }
  }

  lemma {:induction false} BelowTotal(a: string, b: string)
    ensures Below(a, b) || Below(b, a)
    decreases |a|
  {
    if |a| > 0 && |b| > 0 && a[0] == b[0] {
      BelowTotal(a[1..], b[1..]);
    }
  }

  lemma {:induction false} BelowAntisymmetric(a: string, b: string)
    requires Below(a, b) && Below(b, a)
    ensures a == b
    decreases |a|
  {
    if |a| > 0 {
      BelowAntisymmetric(a[1..], b[1..]);
      assert a == [a[0]] + a[1..] && b == [b[0]] + b[1..];
    }
  }

  lemma {:induction false} BelowTransitive(a: string, b: string, c: string)
    requires Below(a, b) && Below(b, c)
    ensures Below(a, c)
    decreases |a|
  {
    if |a| > 0 && a[0] == b[0] && b[0] == c[0] {
      BelowTransitive(a[1..], b[1..], c[1..]);
    }
  }

  predicate Sorted(s: seq<string>)
  {
    forall i, j :: 0 <= i < j < |s| ==> Below(s[i], s[j])
  }

  /** Places `x` before the first element it is below. */
  function Insert(x: string, s: seq<string>): (r: seq<string>)
    requires Sorted(s)
    ensures multiset(r) == multiset(s) + multiset{x}
    ensures Sorted(r)
    decreases |s|
  {
    if |s| == 0 then [x]
    else if Below(x, s[0]) then
      InsertFront(x, s);
      [x] + s
    else
      BelowTotal(x, s[0]);
      var rest := Insert(x, s[1..]);
      InsertBehind(x, s, rest);
      assert s == [s[0]] + s[1..];
      [s[0]] + rest
  }

  lemma InsertFront(x: string, s: seq<string>)
    requires Sorted(s) && |s| > 0 && Below(x, s[0])
    ensures Sorted([x] + s)
  {
    var r := [x] + s;
    forall i, j | 0 <= i < j < |r| ensures Below(r[i], r[j]) {
      if i == 0 && j > 1 {
        BelowTransitive(x, s[0], s[j - 1]);
      }
    }
  }

  lemma InsertBehind(x: string, s: seq<string>, rest: seq<string>)
    requires Sorted(s) && |s| > 0 && Below(s[0], x)
    requires multiset(rest) == multiset(s[1..]) + multiset{x}
    requires Sorted(rest)
    ensures Sorted([s[0]] + rest)
  {
    var r := [s[0]] + rest;
    forall j | 0 < j < |r| ensures Below(s[0], r[j]) {
      assert r[j] == rest[j - 1];
      assert rest[j - 1] in multiset(rest);
      if rest[j - 1] != x {
        assert rest[j - 1] in multiset(s[1..]);
        var k :| 0 <= k < |s[1..]| && s[1..][k] == rest[j - 1];
        assert s[k + 1] == rest[j - 1];
      }
    }
  }

  /** `sorted(s)`: a permutation of `s` in ascending order. */
  function Sort(s: seq<string>): (r: seq<string>)
    ensures multiset(r) == multiset(s)
    ensures Sorted(r)
    decreases |s|
  {
    if |s| == 0 then []
    else
      assert s == [s[0]] + s[1..];
      Insert(s[0], Sort(s[1..]))
  }

  /** The head of an ascending list is below every element of it. */
  lemma HeadIsLeast(a: seq<string>, x: string)
    requires Sorted(a) && x in multiset(a)
    ensures Below(a[0], x)
  {
    var i :| 0 <= i < |a| && a[i] == x;
    if i == 0 {
      BelowReflexive(x);
    }
  }

  /** Two sorted arrangements of one multiset start alike. */
  lemma SameHead(a: seq<string>, b: seq<string>)
    requires Sorted(a) && Sorted(b) && |a| > 0 && |b| > 0
    requires multiset(a) == multiset(b)
    ensures a[0] == b[0]
  {
    assert a[0] in multiset(b) && b[0] in multiset(a);
    HeadIsLeast(a, b[0]);
    HeadIsLeast(b, a[0]);
    BelowAntisymmetric(a[0], b[0]);
  }

  lemma SortedTail(a: seq<string>)
    requires Sorted(a) && |a| > 0
    ensures Sorted(a[1..])
  {
    forall i, j | 0 <= i < j < |a[1..]| ensures Below(a[1..][i], a[1..][j]) {
      assert a[1..][i] == a[i + 1] && a[1..][j] == a[j + 1];
    }
  }

  lemma TailMultiset(a: seq<string>)
    requires |a| > 0
    ensures multiset(a[1..]) == multiset(a) - multiset{a[0]}
  {
    assert a == [a[0]] + a[1..];
  }

  /** A multiset has only one ascending arrangement. */
  lemma {:induction false} SortedUnique(a: seq<string>, b: seq<string>)
    requires Sorted(a) && Sorted(b)
    requires multiset(a) == multiset(b)
    ensures a == b
    decreases |a|
  {
    if |a| == 0 {
      assert |multiset(b)| == 0;
    } else {
      assert |b| == |multiset(b)| == |multiset(a)| == |a|;
      SameHead(a, b);
      TailMultiset(a);
      TailMultiset(b);
      SortedTail(a);
      SortedTail(b);
      SortedUnique(a[1..], b[1..]);
      assert a == [a[0]] + a[1..] && b == [b[0]] + b[1..];
    }
  }

  /** Sorting forgets the order of its input. */
  lemma SortPermutationInvariant(s: seq<string>, t: seq<string>)
    requires multiset(s) == multiset(t)
    ensures Sort(s) == Sort(t)
  {
    SortedUnique(Sort(s), Sort(t));
  }

  /** Sorting a sorted list changes nothing. */
  lemma SortSorted(s: seq<string>)
    requires Sorted(s)
    ensures Sort(s) == s
  {
    SortedUnique(Sort(s), s);
  }
}

=== FILE: table_stats.dfy ===
/** Two small helpers over genotype tables: `is_dup`, which flags a row
    where some individual carries more than two copies, and `bp`, the
    total length covered by a table's rows, optionally divided. */
module TableStats {
  import Seqs

  /** A genotype-table row: contig, start, end, then one genotype per
      individual, with -1 marking an individual without a call. */
  datatype GenotypeRow = GenotypeRow(contig: string, start: int, end: int, gts: seq<int>)

  const NoCall: int := -1

  function Called(): int -> bool
  {
    (g: int) => g != NoCall
  }

  function Duplicated(): int -> bool
  {
    (g: int) => g > 2
  }

  /** `is_dup(row)`: some called genotype is above two copies. */
  function IsDup(row: GenotypeRow): (r: bool)
    ensures r <==> exists i :: 0 <= i < |row.gts| && row.gts[i] != NoCall && row.gts[i] > 2
  {
    DupCount(row.gts);
    Seqs.CountIf(Seqs.Filter(row.gts, Called()), Duplicated()) != 0
  }

  lemma DupCount(gts: seq<int>)
    ensures Seqs.CountIf(Seqs.Filter(gts, Called()), Duplicated()) != 0 <==>
            exists i :: 0 <= i < |gts| && gts[i] != NoCall && gts[i] > 2
  {
    var called := Seqs.Filter(gts, Called());
    if Seqs.CountIf(called, Duplicated()) != 0 {
      var j :| 0 <= j < |called| && called[j] > 2;
      assert called[j] in called;
    } else {
      forall i | 0 <= i < |gts| && gts[i] != NoCall ensures gts[i] <= 2 {
        assert gts[i] in called;
      }
    }
  }

  /** Dropping the -1 sentinels never changes the verdict, since -1 is not
      above two: a row is a duplication exactly when some entry exceeds 2. */
  lemma IsDupIgnoresSentinel(row: GenotypeRow)
    ensures IsDup(row) <==> exists i :: 0 <= i < |row.gts| && row.gts[i] > 2
  {
  }

  /** A row made only of missing calls and counts up to two is no
      duplication, whatever its coordinates. */
  lemma NotDupWhenLow(row: GenotypeRow)
    requires forall i :: 0 <= i < |row.gts| ==> row.gts[i] == NoCall || row.gts[i] <= 2
    ensures !IsDup(row)
  {
  }

  /** Python 2's integer `/` as numpy computes it: rounding toward minus
      infinity, and 0 (with a warning) for a zero divisor. */
  function FloorDiv(a: int, d: int): (q: int)
    ensures d > 0 ==> q * d <= a < q * d + d
    ensures d < 0 ==> q * d >= a > q * d + d
    ensures d == 0 ==> q == 0
  {
    if d > 0 then a / d
    else if d < 0 then (-a) / (-d)
    else 0
  }

  /** The summed lengths `end - start` of the rows. */
  function TotalLength(t: seq<GenotypeRow>): (r: int)
    ensures (forall i :: 0 <= i < |t| ==> t[i].start <= t[i].end) ==> r >= 0
    decreases |t|
  {
    if |t| == 0 then 0 else (t[0].end - t[0].start) + TotalLength(t[1..])
  }

  /** `bp(t, d)`. */
  function Bp(t: seq<GenotypeRow>, d: int): (r: int)
    ensures d > 0 ==> r * d <= TotalLength(t) < r * d + d
    ensures d == 1 ==> r == TotalLength(t)
  {
    FloorDiv(TotalLength(t), d)
  }

  /** The covered length of two tables together is the sum of theirs. */
  lemma {:induction false} TotalLengthAppend(t: seq<GenotypeRow>, u: seq<GenotypeRow>)
    ensures TotalLength(t + u) == TotalLength(t) + TotalLength(u)
    decreases |t|
  {
    if |t| == 0 {
      assert t + u == u;
    } else {
      assert (t + u)[1..] == t[1..] + u;
      TotalLengthAppend(t[1..], u);
    }
  }

  /** Rows that are proper intervals cover a non-negative length, at least
      as long as the longest row. */
  lemma {:induction false} TotalLengthBounds(t: seq<GenotypeRow>)
    requires forall i :: 0 <= i < |t| ==> t[i].start <= t[i].end
    ensures TotalLength(t) >= 0
    ensures forall i :: 0 <= i < |t| ==> TotalLength(t) >= t[i].end - t[i].start
    decreases |t|
  {
    if |t| > 0 {
      TotalLengthBounds(t[1..]);
      forall i | 0 < i < |t| ensures TotalLength(t) >= t[i].end - t[i].start {
        assert t[i] == t[1..][i - 1];
      }
    }
  }
}

=== FILE: text.dfy ===
/** The string handling the two scripts rely on: Python's `str.split(sep)`
    with an explicit one-character separator, `sep.join(parts)`, and the
    decimal rendering of an integer by `"%d"` / `str()`. Each rendering
    comes with the parser that undoes it, so that the formats the scripts
    write can be shown to be readable back. */
module Text {
  import opened Wrappers

  // ---------------------------------------------------------------------
  // Splitting and joining on a one-character separator

  /** `s.split(sep)`: the maximal separator-free pieces of `s`, in order,
      including empty pieces between adjacent separators and at the ends. */
  function Split(s: string, sep: char): (parts: seq<string>)
    ensures |parts| >= 1
    ensures forall i :: 0 <= i < |parts| ==> sep !in parts[i]
    decreases |s|
  {
    if |s| == 0 then [""]
    else if s[0] == sep then [""] + Split(s[1..], sep)
    else
      var rest := Split(s[1..], sep);
      [[s[0]] + rest[0]] + rest[1..]
  }

  /** `sep.join(parts)`. */
  function Join(parts: seq<string>, sep: char): string
    decreases |parts|
  {
    if |parts| == 0 then ""
    else if |parts| == 1 then parts[0]
    else parts[0] + [sep] + Join(parts[1..], sep)
  }

  /** No piece contains the separator. */
  predicate FreeOf(parts: seq<string>, sep: char)
  {
    forall i :: 0 <= i < |parts| ==> sep !in parts[i]
  }

  /** Splitting a separator-free prefix followed by a tail glues the
      prefix onto the tail's first piece. */
  lemma {:induction false} SplitFreePrefix(p: string, tail: string, sep: char)
    requires sep !in p
    ensures Split(p + tail, sep) == [p + Split(tail, sep)[0]] + Split(tail, sep)[1..]
    decreases |p|
  {
    if |p| > 0 {
      assert (p + tail)[1..] == p[1..] + tail;
      assert sep !in p[1..] by {
        forall k | 0 <= k < |p[1..]| ensures p[1..][k] != sep {
          assert p[1..][k] == p[k + 1];
        }
      }
      SplitFreePrefix(p[1..], tail, sep);
      assert [p[0]] + (p[1..] + Split(tail, sep)[0]) == p + Split(tail, sep)[0];
    } else {
      assert p + tail == tail;
      var parts := Split(tail, sep);
      assert p + parts[0] == parts[0];
      assert parts == [parts[0]] + parts[1..];
    }
  }

  /** A string without the separator splits into itself alone. */
  lemma SplitFree(s: string, sep: char)
    requires sep !in s
    ensures Split(s, sep) == [s]
  {
    SplitFreePrefix(s, "", sep);
    assert s + "" == s;
  }

  /** Split undoes Join whenever no piece contains the separator. */
  lemma {:induction false} SplitJoin(parts: seq<string>, sep: char)
    requires |parts| >= 1
    requires FreeOf(parts, sep)
    ensures Split(Join(parts, sep), sep) == parts
    decreases |parts|
  {
    if |parts| == 1 {
      SplitFree(parts[0], sep);
    } else {
      var rest := parts[1..];
      assert FreeOf(rest, sep) by {
        forall i | 0 <= i < |rest| ensures sep !in rest[i] {
          assert rest[i] == parts[i + 1];
        }
      }
      SplitJoin(rest, sep);
      var tail := [sep] + Join(rest, sep);
      assert parts[0] + [sep] + Join(rest, sep) == parts[0] + tail;
      SplitFreePrefix(parts[0], tail, sep);
      assert tail[0] == sep && tail[1..] == Join(rest, sep);
      assert Split(tail, sep) == [""] + rest;
      assert parts[0] + "" == parts[0];
      assert parts == [parts[0]] + rest;
    }
  }

  /** Joining separator-free pieces with `sep` never introduces another
      character `c` that none of the pieces contained. */
  lemma {:induction false} JoinAvoids(parts: seq<string>, sep: char, c: char)
    requires c != sep
    requires FreeOf(parts, c)
    ensures c !in Join(parts, sep)
    decreases |parts|
  {
    if |parts| > 1 {
      var rest := parts[1..];
      assert FreeOf(rest, c) by {
        forall i | 0 <= i < |rest| ensures c !in rest[i] {
          assert rest[i] == parts[i + 1];
        }
      }
      JoinAvoids(rest, sep, c);
      assert c !in parts[0];
      var j := Join(parts, sep);
      assert j == parts[0] + [sep] + Join(rest, sep);
      forall k | 0 <= k < |j| ensures j[k] != c {
        if k < |parts[0]| {
          assert j[k] == parts[0][k];
        } else if k == |parts[0]| {
          assert j[k] == sep;
        } else {
          assert j[k] == Join(rest, sep)[k - |parts[0]| - 1];
        }
      }
    } else if |parts| == 1 {
      assert c !in parts[0];
    }
  }

  /** Joining two non-empty lists of pieces is joining each and putting a
      separator between. */
  lemma {:induction false} JoinAppend(xs: seq<string>, ys: seq<string>, sep: char)
    requires |xs| >= 1 && |ys| >= 1
    ensures Join(xs + ys, sep) == Join(xs, sep) + [sep] + Join(ys, sep)
    decreases |xs|
  {
    if |xs| == 1 {
      assert (xs + ys)[1..] == ys;
    } else {
      assert (xs + ys)[1..] == xs[1..] + ys;
      JoinAppend(xs[1..], ys, sep);
    }
  }

  // ---------------------------------------------------------------------
  // Decimal integers

  predicate IsDigit(c: char)
  {
    '0' <= c <= '9'
  }

  predicate AllDigits(s: string)
  {
    forall i :: 0 <= i < |s| ==> IsDigit(s[i])
  }

  function DigitChar(d: nat): (c: char)
    requires d < 10
    ensures IsDigit(c)
  {
    (d + '0' as int) as char
  }

  function DigitValue(c: char): (d: nat)
    requires IsDigit(c)
    ensures d < 10 && DigitChar(d) == c
  {
    c as int - '0' as int
  }

  /** The decimal digits of a natural number, most significant first,
      without leading zeros. */
  function NatToString(n: nat): (s: string)
    ensures |s| >= 1 && AllDigits(s)
    ensures |s| > 1 ==> s[0] != '0'
    decreases n
  {
    if n < 10 then [DigitChar(n)] else NatToString(n / 10) + [DigitChar(n % 10)]
  }

  /** Python's `"%d" % i` and `str(i)` for an integer: a minus sign
      before the digits of the magnitude when negative. */
  function IntToString(i: int): (s: string)
    ensures |s| >= 1
    ensures i >= 0 <==> AllDigits(s)
    ensures i < 0 <==> s[0] == '-'
  {
    if i < 0 then
      var s := "-" + NatToString(-i);
      assert !IsDigit(s[0]);
      s
    else NatToString(i)
  }

  /** The value of a non-empty string of decimal digits. */
  function ParseNat(s: string): nat
    requires |s| >= 1 && AllDigits(s)
    decreases |s|
  {
    if |s| == 1 then DigitValue(s[0])
    else ParseNat(s[..|s| - 1]) * 10 + DigitValue(s[|s| - 1])
  }

  /** Reads back an optionally signed decimal integer; `None` when the
      string is not one. */
  function ParseInt(s: string): Option<int>
  {
    if |s| >= 2 && s[0] == '-' && AllDigits(s[1..]) then Some(0 - ParseNat(s[1..]) as int)
    else if |s| >= 1 && AllDigits(s) then Some(ParseNat(s))
    else None
  }

  lemma {:induction false} ParseNatToString(n: nat)
    ensures ParseNat(NatToString(n)) == n
    decreases n
  {
    if n >= 10 {
      ParseNatToString(n / 10);
      var s := NatToString(n);
      assert s[..|s| - 1] == NatToString(n / 10);
    }
  }

  /** Every integer's decimal rendering reads back as that integer. */
  lemma IntToStringRoundTrip(i: int)
    ensures ParseInt(IntToString(i)) == Some(i)
  {
    if i < 0 {
      NegativeRoundTrip(-i);
    } else {
      ParseNatToString(i);
    }
  }

  lemma NegativeRoundTrip(n: nat)
    ensures ParseInt("-" + NatToString(n)) == Some(0 - n)
  {
    var digits := NatToString(n);
    var s := "-" + digits;
    assert s[1..] == digits;
    assert s[0] == '-';
    ParseNatToString(n);
  }

  /** Distinct integers are rendered as distinct strings. */
  lemma IntToStringInjective(i: int, j: int)
    requires IntToString(i) == IntToString(j)
    ensures i == j
  {
    IntToStringRoundTrip(i);
    IntToStringRoundTrip(j);
  }

  /** A rendered integer holds neither a separator nor a period. */
  lemma IntToStringAvoids(i: int, c: char)
    requires c != '-' && !IsDigit(c)
    ensures c !in IntToString(i)
  {
    var s := IntToString(i);
    if i < 0 {
      assert AllDigits(s[1..]);
      forall k | 0 <= k < |s| ensures s[k] != c {
        if k > 0 {
          assert s[k] == s[1..][k - 1];
        }
      }
    }
  }
}

=== FILE: wrappers.dfy ===
/** Failure-carrying datatypes shared by the model: `Option` stands for a
    value that may be missing (a NaN cell, a search with no hit), `Result`
    for an operation that can raise. */
module Wrappers {

  datatype Option<+T> = None | Some(value: T)

  datatype Result<+R, +E> = Success(value: R) | Failure(error: E)
}
